=== FILE: README.md ===
# mod_openaichat, modelled in Dafny

A model of the core of the Moodle activity plugin `mod_openaichat`, a chat
widget that forwards a learner's question to OpenAI. The model covers:

- **Settings resolution** (`Settings`): the site-wide plugin configuration and
  the activity's database record. When instance-level settings are allowed, a
  usable instance value wins. The module also parses the free-form "advanced
  settings" block, one `key: value` pair per line.
- **The base completion object** (`Completion`): the constructor that resolves
  the prompt, the names, the assistant id and the advanced settings, then
  copies every truthy per-request override onto the object. It also holds the
  question quota.
- **The plugin class helpers** (`Models`): the built-in model list, the parser
  for the "models" setting, the static quota check and the displayed API type.
- **The Assistants API flow** (`Assistant`), over a scripted provider
  (`Provider`):
  - create a thread unless one is supplied;
  - check the quota;
  - post the message;
  - poll until the message is listed (5 s, 300 ms pauses);
  - start a run;
  - poll its status (20 s, 500 ms pauses);
  - fetch the first assistant message that has text.

  Every request is recorded in a trace. The k-th request receives the k-th
  scripted reply. Each reply takes a scripted number of milliseconds, so the
  clock is a parameter rather than an observation. An exception is an
  `Outcome.Raised` with PHP's message; a `TypeError`'s message is abbreviated
  (see "## Left out").
- **The two AJAX endpoints**: `Endpoint` builds `modsettings`, dispatches on the
  API type and constructs the assistant engine. `History` reverses the
  provider's newest-first message list into `{id, role, message}` entries.
- **Worked scenarios** (`Scenarios`): a full reply, a message that is never
  listed, and a run that times out, each proved against a concrete script.

PHP's semantics are written out where they decide behaviour (`Php`,
`Strings`, `Assoc`):

- truthiness and `empty()`;
- `??` and `?:`;
- a missing property reading as `null`;
- `explode`, `trim` (space, tab, newline, carriage return, NUL, vertical tab);
- insertion-ordered arrays;
- the `TypeError` raised when `null` reaches a typed `string` parameter;
- PHP 8's numeric strings and its loose `==` and `<` between an integer and a
  scalar (`Numeric`), which decide the question quota.

## Model

| member | source | states |
|---|---|---|
| Settings.GetConfig | classes/completion.php:139 | an unset configuration key reads as `false`; a set one as its stored string |
| Settings.GetSetting | classes/completion.php:133-142 | the instance value exactly when the switch is stored as "1" and the instance value is set, non-null and not ""; otherwise the site value (`false` when unset); never null; "" only from a site value of "" |
| Settings.SettingIgnoresDefault | classes/completion.php:133-142 | the `default` argument never changes the result, so a default given for an unset key is not returned |
| Settings.SiteOnlyWhenDisallowed | classes/completion.php:136-140 | with instance settings off, replacing the instance record changes no setting |
| Settings.Classify | classes/completion.php:101-107 | a value is text exactly when it is not numeric; it is a float exactly when it is numeric and contains '.'; the text is kept |
| Numeric.ParseInteger | classes/completion.php:101 | a decimal integer literal is numeric and denotes the integer it spells |
| Numeric.LooseIsInteger | classes/completion.php:155-160 | against an integer, or a string spelling one, `== 0` and `$counter <` are the integer comparisons |
| Numeric.EmptyText | classes/completion.php:155-160 | the empty string is not equal to 0 and no integer is below it |
| Numeric.FractionAndPadding | classes/completion.php:155-160 | "5.0" and " 5" are numeric but not integer literals; 4 is below both, and 5, 7 and 10 below neither, so they compare as the number five, not as text |
| Numeric.BelowMonotone | classes/completion.php:160 | a lower counter is below every numeric limit a higher one is below |
| Settings.ParseAdvancedLine | classes/completion.php:97-100 | a line defines a pair exactly when it holds a colon; the key is the trimmed text before the first colon, the value the classified trimmed rest |
| Settings.ValueKeepsColons | classes/completion.php:97 | colons after the first stay in the value |
| Settings.CollectKeys | classes/completion.php:96-110 | a key is defined exactly when some line defines it |
| Settings.Collect | classes/completion.php:96-110 | every collected key is defined by some line; the last line's pair is always in the result |
| Settings.ParseAdvanced | classes/completion.php:95-110 | a key is in the parsed block exactly when some line of the text defines it |
| Settings.CollectLastWins | classes/completion.php:108 | a key's value comes from the last line that defines it |
| Strings.SplitOnce | classes/completion.php:97 | `explode(':', s, 2)`: one part without the delimiter, else the parts before and after the first one |
| Strings.Split | classes/completion.php:96 | `explode` yields at least one piece and no piece holds the delimiter |
| Strings.Trim | classes/completion.php:99-100 | the result is no longer than the input and has no trim-space at either end |
| Strings.TrimWindow | classes/completion.php:99-100 | the result is empty exactly when the input is all trim-space; otherwise it is a window of the input with only trim-space outside it |
| Strings.TrimUnpadded | classes/completion.php:99-100 | a text without trim-space at its ends is left as it is |
| Strings.TrimIdempotent | classes/completion.php:99-100 | trimming twice is trimming once |
| Strings.JoinSplit | classes/completion.php:96 | joining the pieces of `explode` with the delimiter gives the text back |
| Strings.SplitJoin | classes/openaichat.php:156 | exploding lines joined by newlines, none holding a newline, gives the lines back |
| Strings.SplitCount | classes/openaichat.php:159-160 | `explode` yields one more piece than there are delimiters |
| Completion.Overridden | classes/completion.php:114-120 | every truthy override replaces the property of that name; every other property keeps its value; no other property appears |
| Completion.OverrideLoop | classes/completion.php:115-119 | the loop over the overrides, in any order, yields the map `Overridden` describes |
| Completion.InitialValues | classes/completion.php:80-111 | before the overrides, module id and key come from `modsettings`, the model from the caller, and prompt, names and assistant from `get_setting` |
| Completion.Settle | classes/completion.php:113-124 | message and source of truth are set last and always win; any other property is the override when allowed and truthy, else its initial value |
| Completion.Construct | classes/completion.php:77-125 | message, history, source of truth and advanced settings come from the caller and the settings; any other property is the override when allowed and truthy, else its initial value |
| Completion.SettingPrecedence | classes/completion.php:91-120 | for prompt, names and assistant: request override, else instance value, else site value; with the switch off, only the site value |
| Completion.KeyAndModelFromCaller | classes/completion.php:84-85 | the API key is the request's; the model is the caller's unless an allowed override replaces it |
| Completion.UserHasQuestionsLeft | classes/completion.php:151-161 | an integer limit, or one stored as an integer literal, is the integer quota (0 unlimited, else counter below limit); an unset limit allows everything; the empty text, the site default, allows nothing; other numeric text is compared by its exact value (allowed when it is zero or the counter is below it); other non-numeric text is compared with the counter's spelling as text |
| Completion.DefaultLimitRefuses | settings.php:104-110 | a site whose question limit is the installed default, the empty text, refuses every question, whatever the counter |
| Completion.FractionalLimit | classes/completion.php:155-160 | numeric text that is not an integer literal, such as "5.0" or " 5", is compared by its value: five refuses a counter of 7 and allows 4, and "5.0" refuses 10, which text order would allow |
| Completion.TextLimitReopens | classes/completion.php:155-160 | with the non-numeric limit "5a", a counter of 6 is refused but a counter of 10 allowed |
| Completion.QuotaStaysExhausted | classes/completion.php:155-160 | unless the limit is non-numeric text, a higher counter never gives questions back |
| Models.GetAiModels | classes/openaichat.php:150-154 | a falsy "models" setting falls back to the built-in list; the result never repeats a name |
| Models.ParseModelLine | classes/openaichat.php:159-161 | a line is kept exactly when it holds one comma; the name and type are the trimmed sides of that comma |
| Models.ParseModels | classes/openaichat.php:156-163 | the result never repeats a name, and a name is listed exactly when some line of the trimmed text defines it |
| Models.CollectModels | classes/openaichat.php:157-163 | the models array never repeats a name and has at most one entry per line |
| Models.ModelsKeys | classes/openaichat.php:157-163 | a model is listed exactly when some well-formed line names it |
| Models.ModelsLastWins | classes/openaichat.php:161 | a model's type comes from the last line naming it |
| Models.ModelsInOrder | classes/openaichat.php:157-163 | distinct well-formed lines give their models in line order |
| Models.ListingLines | classes/openaichat.php:156 | trimming and splitting a well-formed listing gives back its lines |
| Models.ListingParses | classes/openaichat.php:150-166 | a listing of distinct plain names of one type parses to those names with that type, in order |
| Models.DefaultModelsParse | classes/openaichat.php:36-48 | the built-in list parses to its thirteen models, in order, each of type "chat" |
| Models.StaticHasQuestionsLeft | classes/openaichat.php:175-186 | the same loose comparison on the instance record's limit: an integer limit is the integer quota, a missing one allows everything, the empty text allows nothing, other numeric text compares by its exact value, other non-numeric text compares as text |
| Models.QuotaChecksAgree | classes/openaichat.php:179-185 | with instance settings on and a limit set on the instance, the static check and the completion's check agree |
| Models.QuotaChecksDiffer | classes/openaichat.php:179-185 | with instance settings off, the two checks can disagree on the same site and counter |
| Models.TypeToDisplay | classes/openaichat.php:97-104 | the configured type when truthy, else "chat"; always truthy |
| Provider.Send | classes/completion/assistant.php:94 | a request is appended to the trace, gets the reply scripted for its position, and never moves the clock back |
| Assistant.Created | classes/completion/assistant.php:96-109 | succeeds exactly on an object without a truthy error and with a truthy id; each failure raises its own message, the error's message defaulting to "Unknown error" |
| Assistant.CreateThread | classes/completion/assistant.php:89-110 | exactly one POST of an empty object to `/threads`, judged by `Created` |
| Assistant.AddMessage | classes/completion/assistant.php:116-145 | exactly one POST of the user's message to the thread's messages, judged by `Created` |
| Assistant.PollMessages | classes/completion/assistant.php:153-175 | only message listings of the thread; no earlier listing shows the id; found exactly when the last one does; gives up only once five seconds have passed |
| Assistant.PollRun | classes/completion/assistant.php:207-231 | only status reads of the run; completed and failed match the last status read; a timeout only after more than twenty seconds |
| Assistant.PollRunContinues | classes/completion/assistant.php:207-231 | every status read before the last one was neither "completed" nor a failure |
| Assistant.TextOfAppend | classes/completion/assistant.php:273-279 | the text of consecutive blocks is the concatenation of their texts |
| Assistant.TextOf | classes/completion/assistant.php:273-279 | a message with no `text` block has empty text |
| Assistant.TextOfBlock | classes/completion/assistant.php:276-278 | a text block contributes its value (a missing value counts as empty); any other block contributes nothing |
| Assistant.FirstReply | classes/completion/assistant.php:268-288 | finds the first assistant message with non-empty text, or proves there is none |
| Assistant.ReplyAnswer | classes/completion/assistant.php:268-294 | the id and text of the first reply in list order, else the fixed "not found" message |
| Assistant.Fetch | classes/completion/assistant.php:258-295 | one listing of the thread's messages, answered by `ReplyAnswer` |
| Assistant.Instructions | classes/completion/assistant.php:189 | the engine's instructions when truthy, else the default; always truthy |
| Assistant.Follow | classes/completion/assistant.php:207-233 | after the run starts, only GETs on the thread; the answer keeps the thread id |
| Assistant.FollowRepolls | classes/completion/assistant.php:207-231 | the run's status is read again only after a status that is neither "completed" nor a failure |
| Assistant.FollowFetches | classes/completion/assistant.php:210-212 | the reply is fetched only right after a "completed" status, and the answer comes from that fetch |
| Assistant.FollowStops | classes/completion/assistant.php:214-228 | without a fetch, a failure status is reported by name; otherwise the status was non-terminal and more than twenty seconds had passed |
| Assistant.Run | classes/completion/assistant.php:181-234 | the first request starts the run; an error reported on it is the answer; a missing run id raises the null-argument TypeError; otherwise the run is followed |
| Assistant.Deliver | classes/completion/assistant.php:74-82 | every request addresses the thread; an exception comes only right after a POST |
| Assistant.DeliverRunsAfterListing | classes/completion/assistant.php:74-82 | a run is started only right after a listing that shows the posted message |
| Assistant.DeliverGivesUp | classes/completion/assistant.php:74-80 | without a run the answer is "could not be persisted", after at least five seconds in which no listing showed the message |
| Assistant.Post | classes/completion/assistant.php:72-82 | the first request posts the message; a failed post raises at once with its message |
| Assistant.CreateCompletion | classes/completion/assistant.php:63-83 | without questions left, the fixed refusal and no request at all; otherwise post and deliver; the thread id is kept |
| Assistant.Start | classes/completion/assistant.php:48-56 | a truthy thread id is kept without a request; otherwise one thread is created and its id is used |
| Assistant.Flow | classes/completion/assistant.php:48-83 | requests are only added and the clock never runs back; with a truthy thread id the constructor makes no request; a failed thread creation raises its message after that single request |
| Assistant.Complete | api/completion.php:84-96 | the engine is constructed and run; with a supplied thread and no questions left, the answer is the refusal and no request is made |
| Assistant.IdOnlyFromReply | classes/completion/assistant.php:281-287 | an answer carries a message id only after a completed run and a listing that holds a reply |
| Assistant.ThreadCreation | classes/completion/assistant.php:52-54 | a thread is created exactly when the supplied id is falsy: first, once, and before the quota check |
| Assistant.QuotaStopsEverything | classes/completion/assistant.php:64-70 | with the quota used up, the only request is the constructor's thread creation and the answer is the refusal |
| Assistant.RaisedAfterPost | classes/completion/assistant.php:94-107 | every exception comes right after a POST: thread creation, message creation or run start |
| Assistant.OneThread | classes/completion/assistant.php:52-55 | the answer names one truthy thread (the supplied or the created one), and every later request addresses it |
| Assistant.ThreadReused | classes/completion/assistant.php:52-53 | sending back the thread id of an answer never creates another thread |
| History.Reverse | api/thread.php:59 | the i-th element of the result is the i-th from the end |
| History.ReverseReverse | api/thread.php:59 | reversing twice gives the list back |
| History.Project | api/thread.php:62-66 | an entry keeps the message's id and role and the first block's text |
| History.Thread | api/thread.php:54-67 | raises on a non-object, on any `error` member, or on a missing `data`; otherwise one entry per message, oldest first |
| History.BuildEntries | api/thread.php:58-67 | the push loop over the reversed list builds what `Thread` describes |
| History.IdsReversed | api/thread.php:58-67 | reversing the ids of the output gives the provider's ids in its order |
| Endpoint.ModSettings | api/completion.php:56-79 | exactly the twelve setting names plus `modid`; each copied from the instance or "" when missing; `modid` the request's |
| Endpoint.BuildModSettings | api/completion.php:71-79 | the copying loop builds the map `ModSettings` describes |
| Endpoint.Dispatch | api/completion.php:80-95 | the assistant engine exactly for type "assistant", with the instance's model unchanged; otherwise the chat path, with a falsy model replaced by "gpt-3.5-turbo" |
| Endpoint.DispatchIgnoresSwitch | api/completion.php:88-90 | the instance-settings switch has no effect on the dispatch |
| Endpoint.Handle | api/completion.php:84-96 | an assistant request runs the assistant engine on the endpoint's `modsettings`; a chat request is handed over with them |
| Endpoint.EngineFromSettings | classes/completion.php:80-85 | an engine built from `modsettings` whose model entry, when truthy, is the caller's model keeps that module id, key and model |
| Endpoint.EngineFromRequest | api/completion.php:79-96 | the constructed engine's module id is the request's, its API key the instance's, its model the instance's |
| Scenarios.HappyPath | classes/completion/assistant.php:63-83 | on an existing thread, five requests end with the first assistant message's id and text; an image block adds nothing |
| Scenarios.MessageLost | classes/completion/assistant.php:72-80 | without a thread id, a thread is created; a message unlisted for over five seconds ends the request without a run |
| Scenarios.RunTimesOut | classes/completion/assistant.php:207-228 | a run that stays queued past twenty seconds ends with the timeout message and no fetch |

## Left out

- HTTP, curl and JSON decoding: `openaichat::api_call` becomes the scripted provider. A transport failure or undecodable body is a non-object response.
- Authorization headers and the API key on the wire: the request trace records the resource, module id, payload and beta header only.
- The chat-completion engine (`classes/completion/chat.php` is not part of this model). `Endpoint.Handle` stops at the hand-over, so the `$engines[$model]` class-name lookup is not modelled.
- `format_text` and the JSON encoding of the response: the answer's message is the raw text.
- Login, `restrictusage`, `required_param`/`clean_param`, the POST-only check and `MUST_EXIST` record lookups: both endpoints are modelled with the record and parameters already in hand.
- Forms, settings pages, the view page, reports, the JavaScript widget and the question counter's increments and logging.
- The missing user-log record: `user_has_questions_left` dereferences it when a limit is set. The model takes the counter as a parameter.
- Completion.UserHasQuestionsLeft: a numeric limit is compared with its exact decimal value. PHP reads non-integer numeric text as a double, so limits beyond a double's precision or range are not modelled. The counter is taken as an integer; the database returns it as its decimal text, which compares the same way.
- Models.StaticHasQuestionsLeft: the same exact reading of numeric limits as `UserHasQuestionsLeft`.
- Settings.Classify: tags numeric values as integer or float text and does not convert them. Floats are not modelled.
- Settings.CollectKeys: keys are strings. PHP turns a canonical integer key such as "5" into the integer 5, which changes neither which keys exist nor their order.
- Models.CollectModels: the same integer-key conversion is not modelled.
- Assistant.PollMessages: the clock moves only by request latencies and sleeps, in whole milliseconds. Real `microtime` resolution and scheduling jitter are not modelled.
- Assistant.PollRun: a status that is not a string is read as "unknown". Without strict types, `get_run_status(): string` (classes/completion/assistant.php:241, 251) coerces an integer, float or boolean status to text, and only an array or object status would raise a `TypeError`. Neither the coercion nor the error is modelled.
- `TypeError` messages are abbreviated: the reason names the function and argument but not the class or the call site, and there is one reason per failure kind.
- History.Thread: every non-object reply reads as `null given`, since the model does not keep which JSON value was decoded. PHP would say `array given` or `int given` for a decoded JSON array or number, and a decoded JSON string passes `property_exists` and fails later at `array_reverse`, with the `NoData` reason.
- PHP warnings and deprecation notices, which the source triggers on missing properties but which do not change the result.
- Concurrency between requests of the same user.
- Completion.Construct: the additional settings always come from the parsed `advanced` setting. A truthy "additionalsettings" entry in the request's settings would replace them in the override loop (classes/completion.php:113-119), but no caller sends that key (api/completion.php:71-79).

## Behaviour worth noting

The model follows the code in each case:

- Advanced settings: a line with more than one colon is not skipped. It is split at its first colon, and the value keeps the rest (`Settings.ValueKeepsColons`).
- `get_setting` never returns its `default` argument, although its docblock (classes/completion.php:130-131) says an unset setting returns it. An unset key reads as the site configuration's `false` (`Settings.SettingIgnoresDefault`).
- An instance value of "0" or `false` is "set" and wins over the site value. Only null and "" fall through.
- A transport failure on the run-start request is not turned into an in-band answer. The missing run id reaches `get_run_status(string $runid)` as null and raises a `TypeError` (`Assistant.Run`).
- A transport failure while waiting for the message, or while fetching the reply, is read as a list without the message (`Assistant.PollMessages`, `Assistant.ReplyAnswer`).
- The history endpoint raises on any `error` member, even a falsy one (`History.Thread`).
- `user_has_questions_left` passes 0 as the limit's default and treats a limit equal to 0 as unlimited (classes/completion.php:154-155). The site default is the empty text, and under PHP 8's comparison rules `'' == 0` is false and no counter is below `''`, so an untouched site refuses every question (`Completion.DefaultLimitRefuses`). An unset limit (`false`) does allow everything.
- A limit that is non-numeric text is compared with the counter as text, so a higher counter can be allowed again (`Completion.TextLimitReopens`).

=== FILE: assistant.dfy ===
/**
 * The Assistants API completion (classes/completion/assistant.php): create a
 * thread unless one is supplied, check the quota, post the user message, wait
 * for it to show up, start a run, poll the run, and fetch the first assistant
 * reply. Every step is a function of the scripted provider and the world
 * (clock and request trace) it starts in; an exception is an outcome.
 */
module Assistant {
  import opened Php
  import opened Settings
  import opened Completion
  import opened Provider

  const NoQuestionsLeft := "You have no more questions left in this activity."
  const NotPersisted := "User message could not be persisted to thread."
  const RunTimedOut := "Run timed out."
  const NoAssistantMessage := "No assistant message found."
  const DefaultInstructions := "You are a helpful assistant."
  const RunFailedPrefix := "Run failed with status: "
  /** PHP refuses a null run id for the string parameter of the status lookup. */
  const NullRunId := "TypeError: get_run_status(): Argument #1 ($runid) must be of type string, null given"

  /** Milliseconds: the sleep between message polls, the message wait, the sleep between run polls, the run wait. */
  const MessagePause: nat := 300
  const MessageTimeout: nat := 5000
  const RunPause: nat := 500
  const RunTimeout: nat := 20000

  datatype Step<T> = Step(outcome: Outcome<T>, world: World)

  /** The array every completion returns: `id`, `message` and `threadid`. */
  datatype Answer = Answer(id: Option<string>, message: Option<string>, threadid: Value)

  /** The request shape shared by all calls on a thread. */
  function OnThreadCall(e: Engine, r: Resource, p: Payload): Call {
    Call(r, Prop(e, "modid"), p, [Beta])
  }

  /** The thread part of a URL: the thread id as PHP interpolates it. */
  function ThreadPath(threadid: Value): string {
    ToPhpString(threadid)
  }

  // ---------------------------------------------------------------------------
  // Creating things: a thread, a message.

  /**
   * The checks after a create request: not an object, an `error`, or an empty
   * `id` each raise with their own message; otherwise the id is the result.
   */
  function Created(what: string, r: Response): (o: Outcome<string>)
    ensures o.Done? <==> r.Object? && !r.error.ErrorObject? && r.id.Some? && Truthy(Str(r.id.value))
    ensures o.Done? ==> o.value == r.id.value && o.value != "" && o.value != "0"
    ensures r.NotObject? ==> o == Raised("OpenAI " + what + " creation failed: empty response.")
    ensures r.Object? && r.error.ErrorObject? ==>
              o == Raised("OpenAI " + what + " creation failed: " + r.error.message.GetOr("Unknown error"))
    ensures r.Object? && !r.error.ErrorObject? && !(r.id.Some? && Truthy(Str(r.id.value))) ==>
              o == Raised("OpenAI " + what + " creation failed: missing " + what + " id.")
  {
    if r.NotObject? then Raised("OpenAI " + what + " creation failed: empty response.")
    else if r.error.ErrorObject? then Raised("OpenAI " + what + " creation failed: " + r.error.message.GetOr("Unknown error"))
    else if r.id.None? || !Truthy(Str(r.id.value)) then Raised("OpenAI " + what + " creation failed: missing " + what + " id.")
    else Done(r.id.value)
  }

  /** `create_thread()`: one POST of an empty object to `/threads`. */
  function CreateThread(e: Engine, script: seq<Reply>, w: World): (s: Step<string>)
    ensures s.world.trace == w.trace + [Call(Threads, Prop(e, "modid"), EmptyObject, [Beta])]
    ensures Extends(w, s.world)
    ensures s.outcome == Created("thread", ResponseAt(script, |w.trace|))
  {
    var x := Send(script, w, Call(Threads, Prop(e, "modid"), EmptyObject, [Beta]));
    Step(Created("thread", x.response), x.world)
  }

  /** `add_message_to_thread()`: one POST of the user's message to the thread's messages. */
  function AddMessage(e: Engine, t: string, script: seq<Reply>, w: World): (s: Step<string>)
    ensures s.world.trace == w.trace + [OnThreadCall(e, ThreadMessages(t), UserMessage("user", Prop(e, "message")))]
    ensures Extends(w, s.world)
    ensures s.outcome == Created("message", ResponseAt(script, |w.trace|))
  {
    var x := Send(script, w, OnThreadCall(e, ThreadMessages(t), UserMessage("user", Prop(e, "message"))));
    Step(Created("message", x.response), x.world)
  }

  // ---------------------------------------------------------------------------
  // Waiting for the posted message.

  /** The response lists a message whose id is exactly `id`; anything without a `data` list lists nothing. */
  predicate Lists(r: Response, id: string) {
    r.Object? && r.data.Some? && exists i :: 0 <= i < |r.data.value| && r.data.value[i].id == Some(id)
  }

  datatype Polled = Polled(found: bool, world: World)

  /** Milliseconds still to wait before `deadline` (counted from `start`) has passed. */
  function Remaining(start: int, deadline: nat, now: int): nat {
    if now - start < deadline then deadline - (now - start) else 0
  }

  /**
   * The do-while of `wait_for_message()` from world `w`, the wait having begun at
   * `start`: list the thread's messages; stop with true when the posted id is
   * listed; otherwise sleep and go round again while under five seconds have passed.
   */
  function PollMessages(e: Engine, t: string, id: string, start: int, script: seq<Reply>, w: World): (p: Polled)
    ensures Extends(w, p.world) && |w.trace| < |p.world.trace|
    ensures forall k :: |w.trace| <= k < |p.world.trace| ==> p.world.trace[k] == OnThreadCall(e, ThreadMessages(t), NoPayload)
    ensures forall k :: |w.trace| <= k < |p.world.trace| - 1 ==> !Lists(ResponseAt(script, k), id)
    ensures p.found <==> Lists(ResponseAt(script, |p.world.trace| - 1), id)
    ensures !p.found ==> p.world.now - start >= MessageTimeout
    decreases Remaining(start, MessageTimeout, w.now)
  {
    var x := Send(script, w, OnThreadCall(e, ThreadMessages(t), NoPayload));
    if Lists(x.response, id) then Polled(true, x.world)
    else
      var w' := Sleep(x.world, MessagePause);
      if w'.now - start < MessageTimeout then
        var p := PollMessages(e, t, id, start, script, w');
        ExtendsKeeps(w, w', p.world);
        p
      else Polled(false, w')
  }

  // ---------------------------------------------------------------------------
  // The run.

  /** How a run's polling ended. */
  datatype RunEnd = Completed | Failed(status: string) | TimedOut

  /** The status read from a run response, `unknown` when it has none. */
  function StatusOf(r: Response): string {
    if r.Object? && r.status.Some? then r.status.value else "unknown"
  }

  /** A status that ends a run without a reply. */
  predicate FailedStatus(s: string) {
    s == "failed" || s == "cancelled" || s == "expired"
  }

  /** A status after which the flow stops polling. */
  predicate Terminal(s: string) {
    s == "completed" || FailedStatus(s)
  }

  datatype RunPoll = RunPoll(end: RunEnd, world: World)

  /**
   * The do-while of `run()` after the run has started at `start`: read the status;
   * `completed` and the failure statuses stop at once; a timeout is declared only
   * when over twenty seconds have passed; otherwise sleep and read again.
   */
  function PollRun(e: Engine, t: string, run: string, start: int, script: seq<Reply>, w: World): (p: RunPoll)
    ensures Extends(w, p.world) && |w.trace| < |p.world.trace|
    ensures forall k :: |w.trace| <= k < |p.world.trace| ==> p.world.trace[k] == OnThreadCall(e, ThreadRun(t, run), NoPayload)
    ensures p.end.Completed? <==> StatusOf(ResponseAt(script, |p.world.trace| - 1)) == "completed"
    ensures p.end.Failed? <==> FailedStatus(StatusOf(ResponseAt(script, |p.world.trace| - 1)))
    ensures p.end.Failed? ==> p.end.status == StatusOf(ResponseAt(script, |p.world.trace| - 1))
    ensures p.end.TimedOut? ==> p.world.now - start > RunTimeout
    decreases Remaining(start, RunTimeout + 1, w.now)
  {
    var x := Send(script, w, OnThreadCall(e, ThreadRun(t, run), NoPayload));
    var status := StatusOf(x.response);
    if status == "completed" then RunPoll(Completed, x.world)
    else if FailedStatus(status) then RunPoll(Failed(status), x.world)
    else if x.world.now - start > RunTimeout then RunPoll(TimedOut, x.world)
    else
      var w' := Sleep(x.world, RunPause);
      assert Remaining(start, RunTimeout + 1, w'.now) < Remaining(start, RunTimeout + 1, w.now);
      var p := PollRun(e, t, run, start, script, w');
      ExtendsKeeps(w, w', p.world);
      p
  }

  /** Every status read before the last one was non-terminal: polling never continues past an end. */
  lemma {:induction false} PollRunContinues(e: Engine, t: string, run: string, start: int, script: seq<Reply>, w: World)
    ensures var p := PollRun(e, t, run, start, script, w);
      forall k :: |w.trace| <= k < |p.world.trace| - 1 ==> !Terminal(StatusOf(ResponseAt(script, k)))
    decreases Remaining(start, RunTimeout + 1, w.now)
  {
    var x := Send(script, w, OnThreadCall(e, ThreadRun(t, run), NoPayload));
    var status := StatusOf(x.response);
    if !Terminal(status) && x.world.now - start <= RunTimeout {
      var w' := Sleep(x.world, RunPause);
      assert Remaining(start, RunTimeout + 1, w'.now) < Remaining(start, RunTimeout + 1, w.now);
      var q := PollRun(e, t, run, start, script, w');
      PollRunContinues(e, t, run, start, script, w');
      assert PollRun(e, t, run, start, script, w) == q;
      forall k | |w.trace| <= k < |q.world.trace| - 1 ensures !Terminal(StatusOf(ResponseAt(script, k))) {
        if k == |w.trace| {
          assert ResponseAt(script, k) == x.response;
        }
      }
    }
  }

  // ---------------------------------------------------------------------------
  // Fetching the reply.

  /** The text of a message: the values of its `text` blocks in order, a missing value counting as empty. */
  function TextOf(blocks: seq<Block>): (s: string)
    ensures (forall i :: 0 <= i < |blocks| ==> blocks[i].kind != Some("text")) ==> s == ""
    decreases |blocks|
  {
    if |blocks| == 0 then "" else BlockText(blocks[0]) + TextOf(blocks[1..])
  }

  /** What one block adds to its message's text. */
  function BlockText(b: Block): string {
    if b.kind == Some("text") then b.text.GetOr("") else ""
  }

  /** The text of one block: its value when it is a `text` block, nothing otherwise. */
  lemma TextOfBlock(b: Block)
    ensures TextOf([b]) == if b.kind == Some("text") then b.text.GetOr("") else ""
  {
    assert [b][1..] == [];
  }

  /** The text of consecutive block lists is the concatenation of their texts, block order kept. */
  lemma {:induction false} TextOfAppend(a: seq<Block>, b: seq<Block>)
    ensures TextOf(a + b) == TextOf(a) + TextOf(b)
    decreases |a|
  {
    if |a| == 0 {
      assert a + b == b;
    } else {
      var ab := a + b;
      assert ab[0] == a[0] && ab[1..] == a[1..] + b;
      TextOfAppend(a[1..], b);
      assert TextOf(ab) == BlockText(a[0]) + (TextOf(a[1..]) + TextOf(b));
    }
  }

  /** A message the fetch accepts: from the assistant, with some text. */
  predicate IsReply(m: Message) {
    m.role == Some("assistant") && TextOf(m.content) != ""
  }

  /** Position of the first reply in list order. */
  function FirstReply(data: seq<Message>): (r: Option<nat>)
    ensures r.Some? ==> r.value < |data| && IsReply(data[r.value])
    ensures r.Some? ==> forall j :: 0 <= j < r.value ==> !IsReply(data[j])
    ensures r.None? ==> forall j :: 0 <= j < |data| ==> !IsReply(data[j])
    decreases |data|
  {
    if |data| == 0 then None
    else if IsReply(data[0]) then Some(0)
    else
      match FirstReply(data[1..])
      case None => None
      case Some(i) => Some(i + 1)
  }

  /** The response lists at least one reply. */
  predicate HasReply(r: Response) {
    r.Object? && r.data.Some? && exists i :: 0 <= i < |r.data.value| && IsReply(r.data.value[i])
  }

  /**
   * The answer built from a message-list response: the id and text of the
   * first reply in list order, or the fixed "not found" message.
   */
  function ReplyAnswer(r: Response, threadid: Value): (a: Answer)
    ensures !HasReply(r) ==> a == Answer(None, Some(NoAssistantMessage), threadid)
    ensures HasReply(r) ==>
              (exists i :: 0 <= i < |r.data.value| && IsReply(r.data.value[i])
                 && (forall j :: 0 <= j < i ==> !IsReply(r.data.value[j]))
                 && a == Answer(r.data.value[i].id, Some(TextOf(r.data.value[i].content)), threadid))
  {
    if r.Object? && r.data.Some? then
      match FirstReply(r.data.value)
      case Some(i) => Answer(r.data.value[i].id, Some(TextOf(r.data.value[i].content)), threadid)
      case None => Answer(None, Some(NoAssistantMessage), threadid)
    else Answer(None, Some(NoAssistantMessage), threadid)
  }

  /** `fetch_assistant_message()`: one GET of the thread's messages, then the first reply. */
  function Fetch(e: Engine, threadid: Value, script: seq<Reply>, w: World): (s: Step<Answer>)
    ensures s.world.trace == w.trace + [OnThreadCall(e, ThreadMessages(ThreadPath(threadid)), NoPayload)]
    ensures Extends(w, s.world)
    ensures s.outcome == Done(ReplyAnswer(ResponseAt(script, |w.trace|), threadid))
  {
    var x := Send(script, w, OnThreadCall(e, ThreadMessages(ThreadPath(threadid)), NoPayload));
    Step(Done(ReplyAnswer(x.response, threadid)), x.world)
  }

  /** `$this->instructions ?: 'You are a helpful assistant.'`. */
  function Instructions(e: Engine): (v: Value)
    ensures Truthy(v)
    ensures Truthy(Prop(e, "instructions")) ==> v == Prop(e, "instructions")
    ensures !Truthy(Prop(e, "instructions")) ==> v == Str(DefaultInstructions)
  {
    var given := Prop(e, "instructions");
    if Truthy(given) then given else Str(DefaultInstructions)
  }

  /** The request that starts a run on the thread. */
  function StartRunCall(e: Engine, threadid: Value): Call {
    OnThreadCall(e, ThreadRuns(ThreadPath(threadid)), StartRun(Prop(e, "assistant"), Instructions(e)))
  }

  /** A GET on thread `t` that reads a run's status or the message list, and starts nothing. */
  predicate Reading(c: Call, t: string) {
    !IsPost(c) && !c.resource.ThreadRuns? && OnThread(c, t)
  }

  /** The run-start response reports an error. */
  predicate RunRefused(r: Response) {
    r.Object? && r.error.ErrorObject?
  }

  /**
   * The part of `run()` after the run has started: poll its status from `w`
   * (the run's start time), then fetch the reply once it has completed, or
   * report the failure status or the timeout.
   */
  function Follow(e: Engine, threadid: Value, run: string, script: seq<Reply>, w: World): (s: Step<Answer>)
    ensures Extends(w, s.world) && |w.trace| < |s.world.trace|
    ensures forall k :: |w.trace| <= k < |s.world.trace| ==> Reading(s.world.trace[k], ThreadPath(threadid))
    ensures s.outcome.Done? && s.outcome.value.threadid == threadid
  {
    var p := PollRun(e, ThreadPath(threadid), run, w.now, script, w);
    match p.end
    case Completed =>
      var f := Fetch(e, threadid, script, p.world);
      ReadingAppended(w, p.world, f.world, OnThreadCall(e, ThreadMessages(ThreadPath(threadid)), NoPayload), ThreadPath(threadid));
      f
    case Failed(status) => Step(Done(Answer(None, Some(RunFailedPrefix + status), threadid)), p.world)
    case TimedOut => Step(Done(Answer(None, Some(RunTimedOut), threadid)), p.world)
  }

  /** A reading request appended to a stretch of reading requests keeps the whole stretch reading. */
  lemma ReadingAppended(w: World, p: World, f: World, c: Call, t: string)
    requires Extends(w, p) && w.now <= f.now && f.trace == p.trace + [c] && Reading(c, t)
    requires forall k :: |w.trace| <= k < |p.trace| ==> Reading(p.trace[k], t)
    ensures Extends(w, f)
    ensures forall k :: |w.trace| <= k < |f.trace| ==> Reading(f.trace[k], t)
  {
    assert f.trace[..|w.trace|] == p.trace[..|w.trace|];
  }

  /** While following a run, its status is read again only after a non-terminal status. */
  lemma FollowRepolls(e: Engine, threadid: Value, run: string, script: seq<Reply>, w: World)
    ensures var s := Follow(e, threadid, run, script, w);
      forall k :: |w.trace| <= k && k + 1 < |s.world.trace| && s.world.trace[k + 1].resource.ThreadRun? ==>
        !Terminal(StatusOf(ResponseAt(script, k)))
  {
    var s := Follow(e, threadid, run, script, w);
    var p := PollRun(e, ThreadPath(threadid), run, w.now, script, w);
    PollRunContinues(e, ThreadPath(threadid), run, w.now, script, w);
    if p.end.Completed? {
      ExtendsKeepsAll(w, p.world, s.world);
    }
  }

  /** The reply is fetched only right after a `completed` status, and the answer is read from that fetch. */
  lemma FollowFetches(e: Engine, threadid: Value, run: string, script: seq<Reply>, w: World)
    ensures var s := Follow(e, threadid, run, script, w);
      s.world.trace[|s.world.trace| - 1].resource.ThreadMessages? ==>
        && |s.world.trace| >= |w.trace| + 2
        && StatusOf(ResponseAt(script, |s.world.trace| - 2)) == "completed"
        && s.outcome == Done(ReplyAnswer(ResponseAt(script, |s.world.trace| - 1), threadid))
  {
    var p := PollRun(e, ThreadPath(threadid), run, w.now, script, w);
    assert p.world.trace[|p.world.trace| - 1].resource.ThreadRun?;
  }

  /**
   * A run followed without a fetch ends on its last status: a failure status
   * is reported by name; otherwise the status was still non-terminal and more
   * than twenty seconds had passed.
   */
  lemma FollowStops(e: Engine, threadid: Value, run: string, script: seq<Reply>, w: World)
    ensures var s := Follow(e, threadid, run, script, w);
      s.world.trace[|s.world.trace| - 1].resource.ThreadRun? ==>
        var status := StatusOf(ResponseAt(script, |s.world.trace| - 1));
        if FailedStatus(status) then s.outcome == Done(Answer(None, Some(RunFailedPrefix + status), threadid))
        else !Terminal(status) && s.world.now > w.now + RunTimeout
             && s.outcome == Done(Answer(None, Some(RunTimedOut), threadid))
  {
    var p := PollRun(e, ThreadPath(threadid), run, w.now, script, w);
    if p.end.Completed? {
      var f := Fetch(e, threadid, script, p.world);
      assert f.world.trace[|f.world.trace| - 1].resource.ThreadMessages?;
    }
  }

  /**
   * `run()`: start a run; a reported error is returned as the message; a
   * response without a run id makes the status lookup fail on its null
   * argument; otherwise follow the run.
   */
  function Run(e: Engine, threadid: Value, script: seq<Reply>, w: World): (s: Step<Answer>)
    ensures Extends(w, s.world) && |w.trace| < |s.world.trace|
    ensures s.world.trace[|w.trace|] == StartRunCall(e, threadid)
    ensures forall k :: |w.trace| < k < |s.world.trace| ==> Reading(s.world.trace[k], ThreadPath(threadid))
    ensures RunRefused(ResponseAt(script, |w.trace|)) ==>
              |s.world.trace| == |w.trace| + 1 && s.outcome == Done(Answer(None, ResponseAt(script, |w.trace|).error.message, threadid))
    ensures s.outcome.Raised? ==> |s.world.trace| == |w.trace| + 1 && s.outcome.reason == NullRunId
    ensures s.outcome.Done? ==> s.outcome.value.threadid == threadid
    ensures |s.world.trace| > |w.trace| + 1 ==>
              var r := ResponseAt(script, |w.trace|);
              r.Object? && !r.error.ErrorObject? && r.id.Some? && s == Follow(e, threadid, r.id.value, script, Send(script, w, StartRunCall(e, threadid)).world)

    ensures var r := ResponseAt(script, |w.trace|);
              !RunRefused(r) && (r.NotObject? || r.id.None?) ==>
                s == Step(Raised(NullRunId), Send(script, w, StartRunCall(e, threadid)).world)
    ensures var r := ResponseAt(script, |w.trace|);
              !RunRefused(r) && r.Object? && r.id.Some? ==>
                s == Follow(e, threadid, r.id.value, script, Send(script, w, StartRunCall(e, threadid)).world)
  {
    var x := Send(script, w, StartRunCall(e, threadid));
    var r := x.response;
    if RunRefused(r) then Step(Done(Answer(None, r.error.message, threadid)), x.world)
    else if r.NotObject? || r.id.None? then Step(Raised(NullRunId), x.world)
    else
      var f := Follow(e, threadid, r.id.value, script, x.world);
      ExtendsKeeps(w, x.world, f.world);
      f
  }

  // ---------------------------------------------------------------------------
  // The whole completion.

  /** The request that posts the user's message to the thread. */
  function PostMessageCall(e: Engine, threadid: Value): Call {
    OnThreadCall(e, ThreadMessages(ThreadPath(threadid)), UserMessage("user", Prop(e, "message")))
  }

  /**
   * The part of `create_completion()` after the message `id` has been posted:
   * wait from `w` until the message is listed, then run; a message that never
   * shows up ends the completion without a run.
   */
  function Deliver(e: Engine, threadid: Value, id: string, script: seq<Reply>, w: World): (s: Step<Answer>)
    ensures Extends(w, s.world) && |w.trace| < |s.world.trace| && AllOnThread(w, s.world, ThreadPath(threadid))
    ensures s.outcome.Raised? ==> IsPost(s.world.trace[|s.world.trace| - 1])
    ensures s.outcome.Done? ==> s.outcome.value.threadid == threadid
  {
    var p := PollMessages(e, ThreadPath(threadid), id, w.now, script, w);
    if !p.found then Step(Done(Answer(None, Some(NotPersisted), threadid)), p.world)
    else
      var r := Run(e, threadid, script, p.world);
      RunOnThread(e, threadid, script, p.world);
      ListingOnThread(e, threadid, id, script, w);
      OnThreadTrans(w, p.world, r.world, ThreadPath(threadid));
      ExtendsTrans(w, p.world, r.world);
      r
  }

  /** Polling for the posted message addresses only its thread. */
  lemma ListingOnThread(e: Engine, threadid: Value, id: string, script: seq<Reply>, w: World)
    ensures AllOnThread(w, PollMessages(e, ThreadPath(threadid), id, w.now, script, w).world, ThreadPath(threadid))
  {
  }

  /** Starting and following a run addresses only its thread. */
  lemma RunOnThread(e: Engine, threadid: Value, script: seq<Reply>, w: World)
    ensures AllOnThread(w, Run(e, threadid, script, w).world, ThreadPath(threadid))
  {
  }

  /** No run is started before a listing has shown the posted message. */
  lemma DeliverRunsAfterListing(e: Engine, threadid: Value, id: string, script: seq<Reply>, w: World)
    ensures var s := Deliver(e, threadid, id, script, w);
      forall k :: |w.trace| <= k < |s.world.trace| && s.world.trace[k].resource.ThreadRuns? ==>
        |w.trace| + 1 <= k && Lists(ResponseAt(script, k - 1), id)
  {
    var s := Deliver(e, threadid, id, script, w);
    var p := PollMessages(e, ThreadPath(threadid), id, w.now, script, w);
    if p.found {
      var r := Run(e, threadid, script, p.world);
      assert s == r;
      ExtendsKeepsAll(w, p.world, s.world);
      forall k | |w.trace| <= k < |s.world.trace| && s.world.trace[k].resource.ThreadRuns?
        ensures |w.trace| + 1 <= k && Lists(ResponseAt(script, k - 1), id)
      {
        if k != |p.world.trace| {
          assert false;
        }
      }
    }
  }

  /**
   * A completion that starts no run gives up on the message only after at
   * least five seconds of polling in which the posted id was never listed.
   */
  lemma DeliverGivesUp(e: Engine, threadid: Value, id: string, script: seq<Reply>, w: World)
    ensures var s := Deliver(e, threadid, id, script, w);
      s.outcome.Done? && (forall k :: |w.trace| <= k < |s.world.trace| ==> !s.world.trace[k].resource.ThreadRuns?) ==>
        && s.outcome.value == Answer(None, Some(NotPersisted), threadid)
        && s.world.now >= w.now + MessageTimeout
        && forall k :: |w.trace| <= k < |s.world.trace| ==> !Lists(ResponseAt(script, k), id)
  {
    var s := Deliver(e, threadid, id, script, w);
    var p := PollMessages(e, ThreadPath(threadid), id, w.now, script, w);
    if p.found {
      var r := Run(e, threadid, script, p.world);
      assert s.world.trace[|p.world.trace|] == r.world.trace[|p.world.trace|];
      assert s.world.trace[|p.world.trace|].resource.ThreadRuns?;
    }
  }

  /** The message post followed by the delivery of the posted message. */
  function Post(e: Engine, threadid: Value, script: seq<Reply>, w: World): (s: Step<Answer>)
    ensures Extends(w, s.world) && |w.trace| < |s.world.trace| && AllOnThread(w, s.world, ThreadPath(threadid))
    ensures s.world.trace[|w.trace|] == PostMessageCall(e, threadid)
    ensures Created("message", ResponseAt(script, |w.trace|)).Raised? ==>
              |s.world.trace| == |w.trace| + 1 && s.outcome == Raised(Created("message", ResponseAt(script, |w.trace|)).reason)
    ensures s.outcome.Raised? ==> IsPost(s.world.trace[|s.world.trace| - 1])
    ensures s.outcome.Done? ==> s.outcome.value.threadid == threadid
  {
    var added := AddMessage(e, ThreadPath(threadid), script, w);
    match added.outcome
    case Raised(reason) => Step(Raised(reason), added.world)
    case Done(id) =>
      var d := Deliver(e, threadid, id, script, added.world);
      ExtendsKeeps(w, added.world, d.world);
      assert AllOnThread(w, added.world, ThreadPath(threadid));
      OnThreadTrans(w, added.world, d.world, ThreadPath(threadid));
      d
  }

  /**
   * `create_completion()` on thread `threadid`: the quota check, then the
   * message post, the wait until it is listed, and the run.
   */
  function CreateCompletion(site: Site, counter: int, e: Engine, threadid: Value, script: seq<Reply>, w: World): (s: Step<Answer>)
    ensures Extends(w, s.world) && AllOnThread(w, s.world, ThreadPath(threadid))
    ensures !UserHasQuestionsLeft(site, counter) ==> s == Step(Done(Answer(None, Some(NoQuestionsLeft), threadid)), w)
    ensures UserHasQuestionsLeft(site, counter) ==> s == Post(e, threadid, script, w)
    ensures s.outcome.Raised? ==> |w.trace| < |s.world.trace| && IsPost(s.world.trace[|s.world.trace| - 1])
    ensures s.outcome.Done? ==> s.outcome.value.threadid == threadid
  {
    if !UserHasQuestionsLeft(site, counter) then Step(Done(Answer(None, Some(NoQuestionsLeft), threadid)), w)
    else Post(e, threadid, script, w)
  }

  /** The request that creates a thread. */
  function CreateThreadCall(e: Engine): Call {
    Call(Threads, Prop(e, "modid"), EmptyObject, [Beta])
  }

  /**
   * The constructor's thread handling: a truthy supplied id is kept as it is;
   * otherwise a thread is created and its id becomes the thread id.
   */
  function Start(e: Engine, threadid: Value, script: seq<Reply>, w: World): (s: Step<Value>)
    ensures Truthy(threadid) ==> s == Step(Done(threadid), w)
    ensures !Truthy(threadid) ==> s.world.trace == w.trace + [CreateThreadCall(e)] && Extends(w, s.world)
    ensures !Truthy(threadid) ==>
              var o := Created("thread", ResponseAt(script, |w.trace|));
              (o.Done? ==> s.outcome == Done(Str(o.value))) && (o.Raised? ==> s.outcome == Raised(o.reason))
    ensures s.outcome.Done? ==> Truthy(s.outcome.value)
  {
    if Truthy(threadid) then Step(Done(threadid), w)
    else
      var c := CreateThread(e, script, w);
      match c.outcome
      case Done(id) => Step(Done(Str(id)), c.world)
      case Raised(reason) => Step(Raised(reason), c.world)
  }

  /**
   * The assistant object for engine `e`: the constructor's thread handling,
   * then `create_completion()`. `counter` is the user's question counter.
   */
  function Flow(site: Site, counter: int, e: Engine, threadid: Value, script: seq<Reply>, w: World): (s: Step<Answer>)
    ensures Extends(w, s.world)
    ensures Truthy(threadid) ==> s == CreateCompletion(site, counter, e, threadid, script, w)
    ensures !Truthy(threadid) && Created("thread", ResponseAt(script, |w.trace|)).Raised? ==>
              && s.outcome == Raised(Created("thread", ResponseAt(script, |w.trace|)).reason)
              && s.world.trace == w.trace + [CreateThreadCall(e)]
  {
    var st := Start(e, threadid, script, w);
    match st.outcome
    case Raised(reason) => Step(Raised(reason), st.world)
    case Done(t) =>
      var c := CreateCompletion(site, counter, e, t, script, st.world);
      ExtendsTrans(w, st.world, c.world);
      c
  }

  /**
   * A request to the assistant engine: construct the completion (settings and
   * overrides), then run the assistant object.
   */
  function Complete(site: Site, model: Value, message: string, history: seq<Turn>, ms: map<string, Value>,
                    threadid: Value, counter: int, script: seq<Reply>, w: World): (s: Step<Answer>)
    ensures Extends(w, s.world)
    ensures Truthy(threadid) && !UserHasQuestionsLeft(site, counter) ==>
              s == Step(Done(Answer(None, Some(NoQuestionsLeft), threadid)), w)
  {
    Flow(site, counter, Construct(site, model, message, history, ms), threadid, script, w)
  }

  // ---------------------------------------------------------------------------
  // Where a message id can come from.

  /**
   * The trace since position `b` ends with a run status of `completed`
   * followed by a message list that holds a reply.
   */
  predicate FetchedReply(script: seq<Reply>, trace: seq<Call>, b: nat) {
    && b + 2 <= |trace|
    && trace[|trace| - 1].resource.ThreadMessages? && !IsPost(trace[|trace| - 1])
    && StatusOf(ResponseAt(script, |trace| - 2)) == "completed"
    && HasReply(ResponseAt(script, |trace| - 1))
  }

  lemma FollowId(e: Engine, threadid: Value, run: string, script: seq<Reply>, w: World)
    ensures var s := Follow(e, threadid, run, script, w);
      s.outcome.Done? && s.outcome.value.id.Some? ==> FetchedReply(script, s.world.trace, |w.trace|)
  {
    var p := PollRun(e, ThreadPath(threadid), run, w.now, script, w);
    if p.end.Completed? {
      FetchId(e, threadid, script, p.world, |w.trace|);
    }
  }

  /** A fetch made right after a `completed` status yields an id only when the list holds a reply. */
  lemma FetchId(e: Engine, threadid: Value, script: seq<Reply>, p: World, b: nat)
    requires b < |p.trace| && StatusOf(ResponseAt(script, |p.trace| - 1)) == "completed"
    ensures var f := Fetch(e, threadid, script, p);
      f.outcome.value.id.Some? ==> FetchedReply(script, f.world.trace, b)
  {
  }

  lemma RunId(e: Engine, threadid: Value, script: seq<Reply>, w: World)
    ensures var s := Run(e, threadid, script, w);
      s.outcome.Done? && s.outcome.value.id.Some? ==> FetchedReply(script, s.world.trace, |w.trace|)
  {
    var x := Send(script, w, StartRunCall(e, threadid));
    var r := x.response;
    if !RunRefused(r) && r.Object? && r.id.Some? {
      FollowId(e, threadid, r.id.value, script, x.world);
    }
  }

  lemma PostId(e: Engine, threadid: Value, script: seq<Reply>, w: World)
    ensures var s := Post(e, threadid, script, w);
      s.outcome.Done? && s.outcome.value.id.Some? ==> FetchedReply(script, s.world.trace, |w.trace|)
  {
    var added := AddMessage(e, ThreadPath(threadid), script, w);
    if added.outcome.Done? {
      var id := added.outcome.value;
      var p := PollMessages(e, ThreadPath(threadid), id, added.world.now, script, added.world);
      if p.found {
        RunId(e, threadid, script, p.world);
      }
    }
  }

  /**
   * The answer carries a message id only when it comes from the fetch after a
   * completed run, and then it is the id of a reply in the fetched list.
   */
  lemma IdOnlyFromReply(site: Site, counter: int, e: Engine, threadid: Value, script: seq<Reply>, w: World)
    ensures var s := Flow(site, counter, e, threadid, script, w);
      s.outcome.Done? && s.outcome.value.id.Some? ==> FetchedReply(script, s.world.trace, |w.trace|)
  {
    var st := Start(e, threadid, script, w);
    if st.outcome.Done? && UserHasQuestionsLeft(site, counter) {
      PostId(e, st.outcome.value, script, st.world);
    }
  }

  // ---------------------------------------------------------------------------
  // Properties of a whole request.

  /**
   * A thread is created exactly when the supplied id is falsy: then the first
   * request is one POST of an empty object to `/threads`, made before the quota
   * is looked at, and no other request addresses `/threads`.
   */
  lemma ThreadCreation(site: Site, counter: int, e: Engine, threadid: Value, script: seq<Reply>, w: World)
    ensures var s := Flow(site, counter, e, threadid, script, w);
      && (forall k :: |w.trace| <= k < |s.world.trace| ==>
            (s.world.trace[k].resource.Threads? <==> !Truthy(threadid) && k == |w.trace|))
      && (!Truthy(threadid) ==>
            |w.trace| < |s.world.trace| && s.world.trace[|w.trace|] == CreateThreadCall(e))
  {
    var st := Start(e, threadid, script, w);
    if st.outcome.Done? {
      var c := CreateCompletion(site, counter, e, st.outcome.value, script, st.world);
      ExtendsKeepsAll(w, st.world, c.world);
    }
  }

  /**
   * With the quota used up the answer is the fixed refusal and no request is
   * made besides the thread creation the constructor already did.
   */
  lemma QuotaStopsEverything(site: Site, counter: int, e: Engine, threadid: Value, script: seq<Reply>, w: World)
    requires !UserHasQuestionsLeft(site, counter)
    ensures var s := Flow(site, counter, e, threadid, script, w);
      && |s.world.trace| == |w.trace| + (if Truthy(threadid) then 0 else 1)
      && (s.outcome.Done? ==> s.outcome.value.id.None? && s.outcome.value.message == Some(NoQuestionsLeft))
  {
  }

  /** An exception always follows a POST: thread creation, message creation, or the run start. */
  lemma RaisedAfterPost(site: Site, counter: int, e: Engine, threadid: Value, script: seq<Reply>, w: World)
    ensures var s := Flow(site, counter, e, threadid, script, w);
      s.outcome.Raised? ==> |w.trace| < |s.world.trace| && IsPost(s.world.trace[|s.world.trace| - 1])
  {
  }

  /**
   * Every answer names one thread, truthy: the supplied one, or the one just
   * created; every request after the creation addresses that thread.
   */
  lemma OneThread(site: Site, counter: int, e: Engine, threadid: Value, script: seq<Reply>, w: World)
    ensures var s := Flow(site, counter, e, threadid, script, w);
      s.outcome.Done? ==>
        var t := s.outcome.value.threadid;
        && Truthy(t)
        && (Truthy(threadid) ==> t == threadid)
        && (!Truthy(threadid) ==> var r := ResponseAt(script, |w.trace|); r.Object? && r.id.Some? && t == Str(r.id.value))
        && forall k :: |w.trace| <= k < |s.world.trace| && !s.world.trace[k].resource.Threads? ==>
             OnThread(s.world.trace[k], ThreadPath(t))
  {
    var st := Start(e, threadid, script, w);
    if st.outcome.Done? {
      var c := CreateCompletion(site, counter, e, st.outcome.value, script, st.world);
      ExtendsKeepsAll(w, st.world, c.world);
    }
  }

  /**
   * The thread id an answer returns, sent back with the next request, keeps
   * that request from creating another thread.
   */
  lemma ThreadReused(site: Site, counter: int, e: Engine, threadid: Value, script: seq<Reply>, w: World,
                     e': Engine, counter': int, script': seq<Reply>, w': World)
    ensures var s := Flow(site, counter, e, threadid, script, w);
      s.outcome.Done? ==>
        var s' := Flow(site, counter', e', s.outcome.value.threadid, script', w');
        forall k :: |w'.trace| <= k < |s'.world.trace| ==> !s'.world.trace[k].resource.Threads?
  {
    var s := Flow(site, counter, e, threadid, script, w);
    if s.outcome.Done? {
      OneThread(site, counter, e, threadid, script, w);
      ThreadCreation(site, counter', e', s.outcome.value.threadid, script', w');
    }
  }
}

=== FILE: assoc.dfy ===
/**
 * A PHP array with string keys, seen as an ordered list of key/value pairs in
 * which no key occurs twice. Assigning to an existing key replaces its value
 * in place; assigning to a new key appends it at the end.
 */
module Assoc {
  import opened Php

  type Assoc<V> = seq<(string, V)>

  predicate UniqueKeys<V>(a: Assoc<V>) {
    forall i, j :: 0 <= i < j < |a| ==> a[i].0 != a[j].0
  }

  predicate HasKey<V>(a: Assoc<V>, k: string) {
    exists i :: 0 <= i < |a| && a[i].0 == k
  }

  function Keys<V>(a: Assoc<V>): (ks: seq<string>)
    ensures |ks| == |a|
    ensures forall i :: 0 <= i < |a| ==> ks[i] == a[i].0
  {
    seq(|a|, i requires 0 <= i < |a| => a[i].0)
  }

  /** `$a[$k] ?? null`: the value stored under `k`. */
  function Lookup<V>(a: Assoc<V>, k: string): (r: Option<V>)
    ensures r.None? <==> !HasKey(a, k)
    ensures r.Some? ==> exists i :: 0 <= i < |a| && a[i] == (k, r.value)
    decreases |a|
  {
    if |a| == 0 then None
    else if a[0].0 == k then Some(a[0].1)
    else
      var r := Lookup(a[1..], k);
      assert forall i :: 0 <= i < |a| - 1 ==> a[1..][i] == a[i + 1];
      r
  }

  /** In a list without repeated keys, the pair at position `i` is what a lookup finds. */
  lemma LookupAt<V>(a: Assoc<V>, i: nat)
    requires UniqueKeys(a)
    requires i < |a|
    ensures Lookup(a, a[i].0) == Some(a[i].1)
  {
    var r := Lookup(a, a[i].0);
    var j :| 0 <= j < |a| && a[j] == (a[i].0, r.value);
    assert i == j;
  }

  /** `$a[$k] = $v`. */
  function Put<V>(a: Assoc<V>, k: string, v: V): (r: Assoc<V>)
    ensures HasKey(a, k) ==> |r| == |a| && Keys(r) == Keys(a)
    ensures !HasKey(a, k) ==> r == a + [(k, v)]
    ensures forall i :: 0 <= i < |r| && r[i].0 != k ==> i < |a| && r[i] == a[i]
    ensures forall i :: 0 <= i < |r| && r[i].0 == k ==> r[i].1 == v
    ensures UniqueKeys(a) ==> UniqueKeys(r)
  {
    if HasKey(a, k) then seq(|a|, i requires 0 <= i < |a| => if a[i].0 == k then (k, v) else a[i])
    else a + [(k, v)]
  }

  /** After `$a[$k] = $v`, reading `k` gives `v` and every other key reads as before. */
  lemma PutLookup<V>(a: Assoc<V>, k: string, v: V, k': string)
    requires UniqueKeys(a)
    ensures Lookup(Put(a, k, v), k) == Some(v)
    ensures k' != k ==> Lookup(Put(a, k, v), k') == Lookup(a, k')
  {
    var r := Put(a, k, v);
    assert HasKey(r, k) by {
      if HasKey(a, k) {
        var i :| 0 <= i < |a| && a[i].0 == k;
        assert r[i].0 == k;
      } else {
        assert r[|a|].0 == k;
      }
    }
    var x := Lookup(r, k);
    var i :| 0 <= i < |r| && r[i] == (k, x.value);
    if k' != k {
      if HasKey(a, k') {
        var j :| 0 <= j < |a| && a[j].0 == k';
        assert r[j] == a[j];
        LookupAt(a, j);
        LookupAt(r, j);
      }
    }
  }
}

=== FILE: completion.dfy ===
/**
 * The base completion object (classes/completion.php): the constructor that
 * merges the resolved settings with the per-request `modsettings` overrides,
 * and the question-quota check every completion runs first.
 */
module Completion {
  import opened Php
  import opened Settings
  import opened Strings
  import opened Numeric

  const DefaultPrompt := "Below is a conversation between a user and a support assistant for a Moodle site, where users go for online learning:"
  const DefaultAssistantName := "Assistant"
  const DefaultUserName := "User"

  /** One earlier exchange as sent by the chat widget; the assistant flow only stores it. */
  datatype Turn = Turn(role: string, message: string)

  /**
   * A constructed completion: its scalar properties by name (a missing name is
   * an unset property, which reads as null), the conversation history, and the
   * parsed advanced settings.
   */
  datatype Engine = Engine(props: map<string, Value>, history: seq<Turn>, additional: map<string, Setting>)

  function Prop(e: Engine, name: string): Value {
    Index(e.props, name)
  }

  /** An entry of `modsettings` that the override loop copies onto the object. */
  predicate Overrides(ms: map<string, Value>, k: string) {
    k in ms && Truthy(ms[k])
  }

  /** The properties set before the override loop, in the constructor's order. */
  function Initial(site: Site, model: Value, ms: map<string, Value>): map<string, Value> {
    map[
      "modid" := Index(ms, "modid"),
      "model" := model,
      "apikey" := Index(ms, "apikey"),
      "prompt" := GetSetting(site, "prompt", Str(DefaultPrompt)),
      "assistantname" := GetSetting(site, "assistantname", Str(DefaultAssistantName)),
      "username" := GetSetting(site, "username", Str(DefaultUserName)),
      "assistant" := GetSetting(site, "assistant", Null)
    ]
  }

  /** The effect of the override loop: every truthy entry replaces the property of the same name. */
  function Overridden(props: map<string, Value>, ms: map<string, Value>): (r: map<string, Value>)
    ensures forall k :: k in r <==> k in props || Overrides(ms, k)
    ensures forall k :: Overrides(ms, k) ==> r[k] == ms[k]
    ensures forall k :: k in props && !Overrides(ms, k) ==> r[k] == props[k]
  {
    map k | k in props.Keys + ms.Keys && (k in props || Overrides(ms, k))
      :: if Overrides(ms, k) then ms[k] else props[k]
  }

  /** The `foreach ($modsettings as $name => $value) if ($value) $this->$name = $value;` loop. */
  method OverrideLoop(props: map<string, Value>, ms: map<string, Value>) returns (r: map<string, Value>)
    ensures r == Overridden(props, ms)
  {
    r := props;
    var todo := ms.Keys;
    while todo != {}
      invariant todo <= ms.Keys
      invariant forall k :: k in r <==> k in props || (Overrides(ms, k) && k !in todo)
      invariant forall k :: k in r && Overrides(ms, k) && k !in todo ==> r[k] == ms[k]
      invariant forall k :: k in r && !(Overrides(ms, k) && k !in todo) ==> r[k] == props[k]
      decreases todo
    {
      var name :| name in todo;
      if Truthy(ms[name]) {
        r := r[name := ms[name]];
      }
      todo := todo - {name};
    }
  }

  /**
   * The override loop, when instance settings are allowed, followed by the two
   * assignments after it: the user's message and the source of truth.
   */
  function Settle(initial: map<string, Value>, allow: bool, ms: map<string, Value>, message: string, sot: Value): (props: map<string, Value>)
    ensures Index(props, "message") == Str(message) && Index(props, "sourceoftruth") == sot
    ensures forall k :: k != "message" && k != "sourceoftruth" && allow && Overrides(ms, k) ==> Index(props, k) == ms[k]
    ensures forall k :: k != "message" && k != "sourceoftruth" && !(allow && Overrides(ms, k)) ==> Index(props, k) == Index(initial, k)
  {
    var p := if allow then Overridden(initial, ms) else initial;
    assert allow ==> forall k :: Overrides(ms, k) ==> k in p && p[k] == ms[k];
    p["message" := Str(message)]["sourceoftruth" := sot]
  }

  /**
   * `new completion(model, message, history, modsettings)` for the instance
   * whose record and site configuration are `site`.
   */
  function Construct(site: Site, model: Value, message: string, history: seq<Turn>, ms: map<string, Value>): (e: Engine)
    ensures Prop(e, "message") == Str(message)
    ensures e.history == history
    ensures Prop(e, "sourceoftruth") == GetSetting(site, "sourceoftruth", Null)
    ensures e.additional == ParseAdvanced(ToPhpString(GetSetting(site, "advanced", Null)))
    ensures forall k :: k != "message" && k != "sourceoftruth" && AllowInstanceSettings(site.config) && Overrides(ms, k)
              ==> Prop(e, k) == ms[k]
    ensures forall k :: k != "message" && k != "sourceoftruth" && !(AllowInstanceSettings(site.config) && Overrides(ms, k))
              ==> Prop(e, k) == Index(Initial(site, model, ms), k)
  {
    var props := Settle(Initial(site, model, ms), AllowInstanceSettings(site.config), ms, message, GetSetting(site, "sourceoftruth", Null));
    Engine(props, history, ParseAdvanced(ToPhpString(GetSetting(site, "advanced", Null))))
  }

  /** Where each initial property comes from. */
  lemma InitialValues(site: Site, model: Value, ms: map<string, Value>)
    ensures var i := Initial(site, model, ms);
      && Index(i, "modid") == Index(ms, "modid")
      && Index(i, "model") == model
      && Index(i, "apikey") == Index(ms, "apikey")
      && Index(i, "prompt") == GetSetting(site, "prompt", Str(DefaultPrompt))
      && Index(i, "assistantname") == GetSetting(site, "assistantname", Str(DefaultAssistantName))
      && Index(i, "username") == GetSetting(site, "username", Str(DefaultUserName))
      && Index(i, "assistant") == GetSetting(site, "assistant", Null)
  {
  }

  /**
   * Three-level precedence for a resolved setting: a truthy per-request value
   * wins when instance settings are allowed; otherwise a usable instance value;
   * otherwise the site value.
   */
  lemma SettingPrecedence(site: Site, model: Value, message: string, history: seq<Turn>, ms: map<string, Value>, name: string)
    requires name in {"prompt", "assistantname", "username", "assistant"}
    ensures var e := Construct(site, model, message, history, ms);
      && (AllowInstanceSettings(site.config) && Overrides(ms, name) ==> Prop(e, name) == ms[name])
      && (AllowInstanceSettings(site.config) && !Overrides(ms, name) && InstanceHas(site.instance, name) ==>
            Prop(e, name) == site.instance[name])
      && (AllowInstanceSettings(site.config) && !Overrides(ms, name) && !InstanceHas(site.instance, name) ==>
            Prop(e, name) == GetConfig(site.config, name))
      && (!AllowInstanceSettings(site.config) ==> Prop(e, name) == GetConfig(site.config, name))
  {
    InitialValues(site, model, ms);
    var d := if name == "prompt" then Str(DefaultPrompt)
             else if name == "assistantname" then Str(DefaultAssistantName)
             else if name == "username" then Str(DefaultUserName)
             else Null;
    assert Index(Initial(site, model, ms), name) == GetSetting(site, name, d);
  }

  /** The API key and the model start from the request and the caller, before any override. */
  lemma KeyAndModelFromCaller(site: Site, model: Value, message: string, history: seq<Turn>, ms: map<string, Value>)
    ensures var e := Construct(site, model, message, history, ms);
      && (!Overrides(ms, "model") || !AllowInstanceSettings(site.config) ==> Prop(e, "model") == model)
      && Prop(e, "apikey") == Index(ms, "apikey")
  {
    InitialValues(site, model, ms);
  }

  // ---------------------------------------------------------------------------
  // Question quota.

  /** The quota read as integers: a limit of 0 means unlimited; otherwise questions are left while the counter is below the limit. */
  predicate QuestionsLeft(limit: int, counter: int) {
    limit == 0 || counter < limit
  }

  /** `$limit == 0 || $counter < $limit` under PHP 8's loose comparison. */
  predicate LimitAllows(limit: Value, counter: int) {
    EqualsZero(limit) || IntBelow(counter, limit)
  }

  /**
   * The limit is numeric text or an integer, or text that is no number at all;
   * only the latter is compared as text.
   */
  predicate TextLimit(limit: Value) {
    limit.Str? && !IsNumeric(limit.s)
  }

  /**
   * `user_has_questions_left()`: the quota check with the limit resolved
   * through `get_setting`. An integer limit, or one stored as an integer
   * literal, behaves as the integer quota; an unset limit allows everything;
   * the empty text, the site's default, allows nothing; other text that is not
   * a number is compared with the counter's decimal spelling as text.
   */
  function UserHasQuestionsLeft(site: Site, counter: int): (r: bool)
    ensures var limit := GetSetting(site, "questionlimit", Int(0));
      (limit.Int? || (limit.Str? && IsIntegerText(limit.s))) ==> (r <==> QuestionsLeft(IntOf(limit), counter))
    ensures GetSetting(site, "questionlimit", Int(0)) == Bool(false) ==> r
    ensures GetSetting(site, "questionlimit", Int(0)) == Str("") ==> !r
    ensures var limit := GetSetting(site, "questionlimit", Int(0));
      TextLimit(limit) ==> (r <==> StrLess(IntToString(counter), limit.s))
    ensures var limit := GetSetting(site, "questionlimit", Int(0));
      limit.Str? && IsNumeric(limit.s) ==> (r <==> Parse(limit.s).digits == 0 || Below(counter, Parse(limit.s)))
  {
    var limit := GetSetting(site, "questionlimit", Int(0));
    LooseIsInteger(counter, limit);
    EmptyText(counter);
    LimitAllows(limit, counter)
  }

  /**
   * Once a user has run out of questions, a higher counter never gives
   * questions back, unless the limit is text that is not a number.
   */
  lemma QuotaStaysExhausted(limit: Value, counter: nat, later: nat)
    requires counter <= later && !TextLimit(limit)
    requires !LimitAllows(limit, counter)
    ensures !LimitAllows(limit, later)
  {
    if limit.Str? && IntBelow(later, limit) {
      BelowMonotone(later, counter, Parse(limit.s));
    }
  }

  /** A site left at the installed default, an empty question limit, refuses every question. */
  lemma DefaultLimitRefuses(counter: int)
    ensures !UserHasQuestionsLeft(Site(map["questionlimit" := ""], map[]), counter)
  {
    assert GetSetting(Site(map["questionlimit" := ""], map[]), "questionlimit", Int(0)) == Str("");
  }

  /** "5a" is not a number: a digit followed by a letter. */
  lemma FiveANotNumeric()
    ensures !IsNumeric("5a")
  {
    assert Unpad("5a") == "5a";
    assert Unsigned("5a") == "5a";
    assert ExponentAt("5a") == 2;
    assert "5a"[..2] == "5a";
    assert IndexOf("5a", '.') == 2;
    assert !IsDigit("5a"[1]);
  }

  lemma SpellSixAndTen()
    ensures IntToString(6) == "6" && IntToString(10) == "10"
  {
    assert NatToString(10) == NatToString(1) + [DigitChar(0)];
  }

  /** With a text limit a higher counter can give questions back: "10" sorts before "5a", "6" after it. */
  lemma TextLimitReopens()
    ensures !LimitAllows(Str("5a"), 6) && LimitAllows(Str("5a"), 10)
  {
    FiveANotNumeric();
    SpellSixAndTen();
    SixAndTenAgainstFiveA();
  }

  lemma SixAndTenAgainstFiveA()
    ensures !StrLess("6", "5a") && StrLess("10", "5a")
  {
  }

  /**
   * A limit of "5.0" is five: a counter of 7 is refused and 4 allowed, as is
   * also the case for " 5". A counter of 10 is refused too, although "10"
   * sorts before "5.0" as text.
   */
  lemma FractionalLimit()
    ensures !LimitAllows(Str("5.0"), 7) && LimitAllows(Str("5.0"), 4) && !LimitAllows(Str("5.0"), 10)
    ensures !LimitAllows(Str(" 5"), 7) && LimitAllows(Str(" 5"), 4)
  {
    FractionAndPadding();
    ParseFivePointZero();
    ParsePaddedFive();
  }
}

=== FILE: endpoint.dfy ===
/**
 * The completion endpoint (api/completion.php): the per-request `modsettings`
 * map built from the instance record, the choice of engine by the instance's
 * API type, and the hand-over to the assistant engine.
 */
module Endpoint {
  import opened Php
  import opened Settings
  import opened Completion
  import opened Provider
  import Assistant

  /** The instance fields copied into `modsettings`, in the endpoint's order. */
  const SettingNames: seq<string> := [
    "sourceoftruth", "prompt", "username", "assistantname", "apikey", "model",
    "temperature", "maxlength", "topp", "frequency", "presence", "assistant"
  ]

  /** The model the chat path falls back to when the instance names none. */
  const FallbackModel := "gpt-3.5-turbo"

  /** The value the endpoint copies for one field: the instance's, or "" when the record has no such field. */
  function FieldOrEmpty(instance: map<string, Value>, name: string): Value {
    if name in instance then instance[name] else Str("")
  }

  /** `$modsettings`: the twelve fields from the instance record, plus the request's module id. */
  function ModSettings(instance: map<string, Value>, modid: int): (ms: map<string, Value>)
    ensures forall k :: k in ms <==> k in SettingNames || k == "modid"
    ensures forall k :: k in SettingNames ==> ms[k] == FieldOrEmpty(instance, k)
    ensures ms["modid"] == Int(modid)
  {
    (map k | k in SettingNames :: FieldOrEmpty(instance, k))["modid" := Int(modid)]
  }

  /** The `foreach ($settings as $setting)` loop followed by the `modid` assignment. */
  method BuildModSettings(instance: map<string, Value>, modid: int) returns (ms: map<string, Value>)
    ensures ms == ModSettings(instance, modid)
  {
    ms := map[];
    var i := 0;
    while i < |SettingNames|
      invariant 0 <= i <= |SettingNames|
      invariant forall k :: k in ms <==> k in SettingNames[..i]
      invariant forall k :: k in ms ==> ms[k] == FieldOrEmpty(instance, k)
    {
      var name := SettingNames[i];
      ms := ms[name := FieldOrEmpty(instance, name)];
      i := i + 1;
    }
    assert SettingNames[..i] == SettingNames;
    ms := ms["modid" := Int(modid)];
  }

  /** Which engine class serves the request, and the model it is constructed with. */
  datatype EngineChoice = AssistantEngine(model: Value) | ChatEngine(model: Value)

  /**
   * The dispatch on the instance's API type: exactly "assistant" selects the
   * assistant engine with the instance's model as it is; anything else takes
   * the chat path, where a falsy model becomes the fallback model.
   */
  function Dispatch(config: map<string, string>, instance: map<string, Value>): (c: EngineChoice)
    ensures c.AssistantEngine? <==> Index(instance, "type") == Str("assistant")
    ensures c.AssistantEngine? ==> c.model == Index(instance, "model")
    ensures c.ChatEngine? ==> Truthy(c.model)
    ensures c.ChatEngine? && Truthy(Index(instance, "model")) ==> c.model == Index(instance, "model")
    ensures c.ChatEngine? && !Truthy(Index(instance, "model")) ==> c.model == Str(FallbackModel)
  {
    var model := Index(instance, "model");
    if Index(instance, "type") == Str("assistant") then AssistantEngine(model)
    else
      // With instance settings allowed, a truthy instance model is assigned again: the same value either way.
      var model' := if AllowInstanceSettings(config) && Truthy(model) then model else model;
      ChatEngine(if Truthy(model') then model' else Str(FallbackModel))
  }

  /** The instance-settings switch has no say in the dispatch. */
  lemma DispatchIgnoresSwitch(config: map<string, string>, config': map<string, string>, instance: map<string, Value>)
    ensures Dispatch(config, instance) == Dispatch(config', instance)
  {
  }

  /** What the endpoint does with a request: an assistant answer, or a hand-over to the chat engine. */
  datatype Handled = AssistantAnswer(step: Assistant.Step<Assistant.Answer>) | ChatRequest(model: Value, ms: map<string, Value>)

  /**
   * One request for instance `site.instance` with module id `modid`: build
   * `modsettings`, pick the engine, and construct it with
   * (model, message, history, modsettings, threadid).
   */
  function Handle(site: Site, modid: int, message: string, history: seq<Turn>, threadid: Value,
                  counter: int, script: seq<Reply>, w: World): (h: Handled)
    ensures h.AssistantAnswer? <==> Index(site.instance, "type") == Str("assistant")
    ensures h.AssistantAnswer? ==>
              h.step == Assistant.Complete(site, Index(site.instance, "model"), message, history,
                                           ModSettings(site.instance, modid), threadid, counter, script, w)
    ensures h.ChatRequest? ==> h.ms == ModSettings(site.instance, modid) && h.model == Dispatch(site.config, site.instance).model
  {
    var ms := ModSettings(site.instance, modid);
    match Dispatch(site.config, site.instance)
    case AssistantEngine(model) =>
      AssistantAnswer(Assistant.Complete(site, model, message, history, ms, threadid, counter, script, w))
    case ChatEngine(model) => ChatRequest(model, ms)
  }

  /** The three entries of `modsettings` the engine's identity depends on. */
  lemma ModSettingsIdentity(instance: map<string, Value>, modid: int)
    ensures var ms := ModSettings(instance, modid);
      && "modid" in ms && ms["modid"] == Int(modid)
      && "apikey" in ms && ms["apikey"] == FieldOrEmpty(instance, "apikey")
      && "model" in ms && (Truthy(ms["model"]) ==> ms["model"] == Index(instance, "model"))
  {
    assert "apikey" in SettingNames && "model" in SettingNames;
  }

  /**
   * An engine constructed with the module id, key and model found in
   * `modsettings` keeps them, whether or not the overrides apply.
   */
  lemma EngineFromSettings(site: Site, model: Value, message: string, history: seq<Turn>, ms: map<string, Value>,
                           modid: int, key: Value)
    requires "modid" in ms && ms["modid"] == Int(modid)
    requires "apikey" in ms && ms["apikey"] == key
    requires "model" in ms && (Truthy(ms["model"]) ==> ms["model"] == model)
    ensures var e := Construct(site, model, message, history, ms);
      Prop(e, "modid") == Int(modid) && Prop(e, "apikey") == key && Prop(e, "model") == model
  {
    InitialValues(site, model, ms);
  }

  /**
   * With the endpoint's `modsettings`, the engine's module id is the request's,
   * its API key the instance's field (empty when missing), and its model the
   * instance's, whether or not instance settings are allowed.
   */
  lemma EngineFromRequest(site: Site, modid: int, message: string, history: seq<Turn>)
    ensures var e := Construct(site, Index(site.instance, "model"), message, history, ModSettings(site.instance, modid));
      && Prop(e, "modid") == Int(modid)
      && Prop(e, "apikey") == FieldOrEmpty(site.instance, "apikey")
      && Prop(e, "model") == Index(site.instance, "model")
  {
    ModSettingsIdentity(site.instance, modid);
    EngineFromSettings(site, Index(site.instance, "model"), message, history, ModSettings(site.instance, modid),
                       modid, FieldOrEmpty(site.instance, "apikey"));
  }
}

=== FILE: history.dfy ===
/**
 * The thread history endpoint (api/thread.php): the provider's message list
 * for a thread, newest first, turned into the widget's oldest-first list of
 * `{id, role, message}` entries, or an exception when the provider reports an
 * error.
 */
module History {
  import opened Php
  import opened Provider

  /** One entry of the endpoint's output. */
  datatype Entry = Entry(id: Option<string>, role: Option<string>, message: Option<string>)

  /** `array_reverse`. */
  function Reverse<T>(s: seq<T>): (r: seq<T>)
    ensures |r| == |s|
    ensures forall i :: 0 <= i < |s| ==> r[i] == s[|s| - 1 - i]
  {
    seq(|s|, i requires 0 <= i < |s| => s[|s| - 1 - i])
  }

  /** Reversing twice gives the list back. */
  lemma ReverseReverse<T>(s: seq<T>)
    ensures Reverse(Reverse(s)) == s
  {
    var r := Reverse(s);
    assert forall i :: 0 <= i < |s| ==> Reverse(r)[i] == r[|s| - 1 - i] == s[i];
  }

  /** The text of the first content block, when there is one and it has a text value. */
  function FirstText(content: seq<Block>): (t: Option<string>)
    ensures t.Some? ==> |content| > 0 && content[0].text == Some(t.value)
    ensures t.None? ==> |content| == 0 || content[0].text.None?
  {
    if |content| == 0 then None else content[0].text
  }

  /** One message as the endpoint emits it. */
  function Project(m: Message): (x: Entry)
    ensures x.id == m.id && x.role == m.role && x.message == FirstText(m.content)
  {
    Entry(m.id, m.role, FirstText(m.content))
  }

  /** The message for the exception thrown on a provider error: null (an empty message) unless the error carries one. */
  function ErrorReason(f: ErrorField): string {
    match f
    case ErrorObject(m) => m.GetOr("")
    case _ => ""
  }

  const NotAnObject := "TypeError: property_exists(): Argument #1 ($object_or_class) must be of type object|string, null given"
  const NoData := "TypeError: array_reverse(): Argument #1 ($array) must be of type array, null given"

  /**
   * The endpoint's output for a provider response: an exception when it is not
   * an object, has an `error` member at all, or has no `data`; otherwise one
   * entry per message, in reverse order.
   */
  function Thread(r: Response): (o: Outcome<seq<Entry>>)
    ensures r.NotObject? ==> o == Raised(NotAnObject)
    ensures r.Object? && !r.error.NoError? ==> o == Raised(ErrorReason(r.error))
    ensures r.Object? && r.error.NoError? && r.data.None? ==> o == Raised(NoData)
    ensures o.Done? <==> r.Object? && r.error.NoError? && r.data.Some?
    ensures o.Done? ==> |o.value| == |r.data.value|
    ensures o.Done? ==> forall i :: 0 <= i < |o.value| ==> o.value[i] == Project(r.data.value[|r.data.value| - 1 - i])
  {
    if r.NotObject? then Raised(NotAnObject)
    else if !r.error.NoError? then Raised(ErrorReason(r.error))
    else if r.data.None? then Raised(NoData)
    else
      var messages := Reverse(r.data.value);
      Done(seq(|messages|, i requires 0 <= i < |messages| => Project(messages[i])))
  }

  /** The `foreach` / `array_push` loop over the reversed list. */
  method BuildEntries(data: seq<Message>) returns (entries: seq<Entry>)
    ensures |entries| == |data|
    ensures Thread(Object(NoError, None, None, Some(data))) == Done(entries)
  {
    var messages := Reverse(data);
    entries := [];
    var i := 0;
    while i < |messages|
      invariant 0 <= i <= |messages|
      invariant |entries| == i
      invariant forall j :: 0 <= j < i ==> entries[j] == Project(data[|data| - 1 - j])
    {
      entries := entries + [Project(messages[i])];
      i := i + 1;
    }
    var o := Thread(Object(NoError, None, None, Some(data)));
    assert o.value == entries;
  }

  /**
   * Listing the history oldest first and then reversing it again gives the
   * provider's newest-first order back: the ids read from the output, reversed,
   * are the provider's ids.
   */
  lemma IdsReversed(data: seq<Message>)
    ensures var o := Thread(Object(NoError, None, None, Some(data)));
      Reverse(seq(|o.value|, i requires 0 <= i < |o.value| => o.value[i].id))
        == seq(|data|, i requires 0 <= i < |data| => data[i].id)
  {
    var o := Thread(Object(NoError, None, None, Some(data)));
    var ids := seq(|o.value|, i requires 0 <= i < |o.value| => o.value[i].id);
    forall i | 0 <= i < |data| ensures Reverse(ids)[i] == data[i].id {
      assert Reverse(ids)[i] == ids[|data| - 1 - i] == Project(data[i]).id;
    }
  }
}

=== FILE: models.dfy ===
/**
 * The static helpers of the module class (classes/openaichat.php): the list of
 * selectable models parsed from the site's "models" text, the question quota
 * read straight from an instance record, and the API type shown by default.
 */
module Models {
  import opened Php
  import opened Strings
  import opened Assoc
  import opened Settings
  import opened Numeric
  import Completion

  const DefaultModelNames: seq<string> := [
    "gpt-5.2", "gpt-5.1", "gpt-5", "gpt-5-mini", "gpt-5-nano", "gpt-4.1", "gpt-4.1-mini",
    "gpt-4.1-nano", "gpt-4o", "gpt-4o-mini", "o3", "o3-mini", "o4-mini"
  ]

  /** The indentation the source file leaves in front of every line of the constant but the first. */
  const Indent := "        "

  /** A word usable in a model listing: non-empty, no comma or newline, no whitespace at its ends. */
  predicate PlainWord(w: string) {
    && |w| > 0 && ',' !in w && '\n' !in w
    && !IsTrimSpace(w[0]) && !IsTrimSpace(w[|w| - 1])
  }

  /** Lines `pads[i] + names[i] + ", " + ty`, one per model. */
  function Listing(pads: seq<string>, names: seq<string>, ty: string): (lines: seq<string>)
    requires |pads| == |names|
    ensures |lines| == |names|
  {
    seq(|names|, i requires 0 <= i < |names| => pads[i] + names[i] + ", " + ty)
  }

  function DefaultPads(): (pads: seq<string>)
    ensures |pads| == 13
  {
    seq(13, i requires 0 <= i < 13 => if i == 0 then "" else Indent)
  }

  /** `openaichat::DEFAULT_MODELS`: one "name, chat" line per model, each after the first indented. */
  const DefaultModels: string := Join(Listing(DefaultPads(), DefaultModelNames, "chat"), '\n')

  /** A line `name, type`: exactly one comma, both sides trimmed. */
  function ParseModelLine(line: string): (r: Option<(string, string)>)
    ensures r.Some? <==> Count(line, ',') == 1
    ensures r.Some? ==> IndexOf(line, ',') < |line|
                        && r.value == (Trim(line[..IndexOf(line, ',')]), Trim(line[IndexOf(line, ',') + 1..]))
  {
    var parts := Split(line, ',');
    SplitCount(line, ',');
    if |parts| == 2 then
      SplitPair(line, ',');
      Some((Trim(parts[0]), Trim(parts[1])))
    else None
  }

  function ParsedModelLines(lines: seq<string>): (entries: seq<Option<(string, string)>>)
    ensures |entries| == |lines|
    ensures forall i :: 0 <= i < |lines| ==> entries[i] == ParseModelLine(lines[i])
  {
    seq(|lines|, i requires 0 <= i < |lines| => ParseModelLine(lines[i]))
  }

  /** `$models[$name] = $type` for every well-formed line, top to bottom, keeping PHP's key order. */
  function CollectModels(entries: seq<Option<(string, string)>>): (r: Assoc<string>)
    ensures UniqueKeys(r)
    ensures |r| <= |entries|
    decreases |entries|
  {
    if |entries| == 0 then []
    else
      var a := CollectModels(entries[..|entries| - 1]);
      match entries[|entries| - 1]
      case None => a
      case Some(kv) => Put(a, kv.0, kv.1)
  }

  /** The model list parser: trim the whole text, one entry per line. */
  function ParseModels(text: string): (r: Assoc<string>)
    ensures UniqueKeys(r)
    ensures forall k :: HasKey(r, k) <==> LinesName(Split(Trim(text), '\n'), k)
  {
    var lines := Split(Trim(text), '\n');
    ParsedModelKeys(lines);
    CollectModels(ParsedModelLines(lines))
  }

  /** Some line of the listing names model `k`. */
  predicate LinesName(lines: seq<string>, k: string) {
    exists i :: 0 <= i < |lines| && Defines(ParseModelLine(lines[i]), k)
  }

  /** The models collected from some lines are the ones those lines name. */
  lemma ParsedModelKeys(lines: seq<string>)
    ensures forall k :: HasKey(CollectModels(ParsedModelLines(lines)), k) <==> LinesName(lines, k)
  {
    var entries := ParsedModelLines(lines);
    forall k ensures HasKey(CollectModels(entries), k) <==> LinesName(lines, k) {
      ModelsKeys(entries, k);
      if HasKey(CollectModels(entries), k) {
        var i :| 0 <= i < |entries| && Defines(entries[i], k);
        assert Defines(ParseModelLine(lines[i]), k);
      }
      if LinesName(lines, k) {
        var i :| 0 <= i < |lines| && Defines(ParseModelLine(lines[i]), k);
        assert Defines(entries[i], k);
      }
    }
  }

  /** `get_ai_models()`: an unset or empty "models" setting falls back to the built-in list. */
  function GetAiModels(config: map<string, string>): (r: Assoc<string>)
    ensures UniqueKeys(r)
    ensures !Truthy(GetConfig(config, "models")) ==> r == ParseModels(DefaultModels)
    ensures Truthy(GetConfig(config, "models")) ==> r == ParseModels(config["models"])
  {
    var v := GetConfig(config, "models");
    ParseModels(if Truthy(v) then v.s else DefaultModels)
  }

  /** A model name is listed exactly when some well-formed line names it. */
  lemma {:induction false} ModelsKeys(entries: seq<Option<(string, string)>>, k: string)
    ensures HasKey(CollectModels(entries), k) <==> exists i :: 0 <= i < |entries| && Defines(entries[i], k)
    decreases |entries|
  {
    if |entries| > 0 {
      var init := entries[..|entries| - 1];
      var a := CollectModels(init);
      ModelsKeys(init, k);
      assert forall i :: 0 <= i < |init| ==> init[i] == entries[i];
      var r := CollectModels(entries);
      match entries[|entries| - 1]
      case None =>
      case Some(kv) =>
        if kv.0 == k {
          assert Defines(entries[|entries| - 1], k);
          if HasKey(a, k) {
            var j :| 0 <= j < |a| && a[j].0 == k;
            assert Keys(r)[j] == Keys(a)[j];
          } else {
            assert r[|a|].0 == k;
          }
        } else {
          if HasKey(a, k) {
            var j :| 0 <= j < |a| && a[j].0 == k;
            if HasKey(a, kv.0) {
              assert Keys(r)[j] == Keys(a)[j];
            } else {
              assert r[j] == a[j];
            }
          }
          if HasKey(r, k) {
            var j :| 0 <= j < |r| && r[j].0 == k;
            assert r[j] == a[j];
          }
        }
    }
  }

  /** A model's type is the one given by the last line naming it. */
  lemma {:induction false} ModelsLastWins(entries: seq<Option<(string, string)>>, k: string, i: nat)
    requires i < |entries| && Defines(entries[i], k)
    requires forall j :: i < j < |entries| ==> !Defines(entries[j], k)
    ensures Lookup(CollectModels(entries), k) == Some(entries[i].value.1)
    decreases |entries|
  {
    var init := entries[..|entries| - 1];
    var a := CollectModels(init);
    if i < |entries| - 1 {
      assert init[i] == entries[i];
      ModelsLastWins(init, k, i);
      match entries[|entries| - 1]
      case None =>
      case Some(kv) =>
        assert kv.0 != k by { assert !Defines(entries[|entries| - 1], k); }
        PutLookup(a, kv.0, kv.1, k);
    } else {
      var kv := entries[i].value;
      PutLookup(a, kv.0, kv.1, k);
    }
  }

  /** Lines that all parse and name distinct models give the models in line order. */
  lemma {:induction false} ModelsInOrder(entries: seq<Option<(string, string)>>)
    requires forall i :: 0 <= i < |entries| ==> entries[i].Some?
    requires forall i, j :: 0 <= i < j < |entries| ==> entries[i].value.0 != entries[j].value.0
    ensures |CollectModels(entries)| == |entries|
    ensures forall i :: 0 <= i < |entries| ==> CollectModels(entries)[i] == entries[i].value
    decreases |entries|
  {
    if |entries| > 0 {
      var init := entries[..|entries| - 1];
      ModelsInOrder(init);
      var a := CollectModels(init);
      var kv := entries[|entries| - 1].value;
      assert !HasKey(a, kv.0);
    }
  }

  /** The comma of a model line separates the padded name from the type. */
  lemma ModelLineSplit(pad: string, name: string, ty: string)
    requires ',' !in pad && ',' !in name && ',' !in ty
    ensures Split(pad + name + ", " + ty, ',') == [pad + name, " " + ty]
  {
    var left, right := pad + name, " " + ty;
    assert pad + name + ", " + ty == left + [','] + right;
    assert ',' !in left;
    SplitAt(left, right, ',');
    SplitNoDelimiter(right, ',');
  }

  /** A line that explodes into two pieces parses to the two pieces, trimmed. */
  lemma ParsePair(line: string, left: string, right: string)
    requires Split(line, ',') == [left, right]
    ensures ParseModelLine(line) == Some((Trim(left), Trim(right)))
  {
  }

  /** A line of padding, a name, a comma and a type parses to the name and the type. */
  lemma ModelLine(pad: string, name: string, ty: string)
    requires forall k :: 0 <= k < |pad| ==> IsTrimSpace(pad[k])
    requires ',' !in name && ',' !in ty
    requires |name| > 0 && !IsTrimSpace(name[0]) && !IsTrimSpace(name[|name| - 1])
    requires |ty| > 0 && !IsTrimSpace(ty[0]) && !IsTrimSpace(ty[|ty| - 1])
    ensures ParseModelLine(pad + name + ", " + ty) == Some((name, ty))
  {
    assert ',' !in pad by {
      forall k | 0 <= k < |pad| ensures pad[k] != ',' {
        assert IsTrimSpace(pad[k]);
      }
    }
    var left, right := pad + name, " " + ty;
    assert Trim(left) == name by {
      TrimPadded(pad, name, "");
      assert pad + name + "" == left;
    }
    assert Trim(right) == ty by {
      TrimPadded(" ", ty, "");
      assert " " + ty + "" == right;
    }
    ModelLineSplit(pad, name, ty);
    ParsePair(pad + name + ", " + ty, left, right);
  }

  /** Requirements on a listing: plain words, padding of whitespace only, an unindented first line. */
  predicate WellFormedListing(pads: seq<string>, names: seq<string>, ty: string) {
    && |pads| == |names| >= 1 && pads[0] == ""
    && (forall i :: 0 <= i < |pads| ==> forall k :: 0 <= k < |pads[i]| ==> IsTrimSpace(pads[i][k]))
    && (forall i :: 0 <= i < |pads| ==> '\n' !in pads[i])
    && (forall i :: 0 <= i < |names| ==> PlainWord(names[i]))
    && PlainWord(ty)
  }

  lemma ListingLines(pads: seq<string>, names: seq<string>, ty: string)
    requires WellFormedListing(pads, names, ty)
    ensures forall i :: 0 <= i < |names| ==> '\n' !in Listing(pads, names, ty)[i]
    ensures Split(Trim(Join(Listing(pads, names, ty), '\n')), '\n') == Listing(pads, names, ty)
    ensures ParseModels(Join(Listing(pads, names, ty), '\n')) == CollectModels(ParsedModelLines(Listing(pads, names, ty)))
  {
    var ls := Listing(pads, names, ty);
    var text := Join(ls, '\n');
    forall i | 0 <= i < |ls| ensures |ls[i]| > 0 && '\n' !in ls[i] {
      assert ls[i] == pads[i] + names[i] + ", " + ty;
    }
    JoinEnds(ls, '\n');
    assert ls[0] == names[0] + ", " + ty;
    assert ls[|ls| - 1][|ls[|ls| - 1]| - 1] == ty[|ty| - 1];
    TrimPadded("", text, "");
    assert "" + text + "" == text;
    SplitJoin(ls, '\n');
  }

  /**
   * A listing of distinct plain names, the first line unindented, parses to
   * the names in order, each with the listed type.
   */
  lemma ListingParses(pads: seq<string>, names: seq<string>, ty: string)
    requires WellFormedListing(pads, names, ty)
    requires forall i, j :: 0 <= i < j < |names| ==> names[i] != names[j]
    ensures |ParseModels(Join(Listing(pads, names, ty), '\n'))| == |names|
    ensures forall i :: 0 <= i < |names| ==> ParseModels(Join(Listing(pads, names, ty), '\n'))[i] == (names[i], ty)
  {
    var ls := Listing(pads, names, ty);
    var text := Join(ls, '\n');
    ListingLines(pads, names, ty);
    var entries := ListingEntries(pads, names, ty);
    NamedInOrder(entries, names, ty);
  }

  /** Parsed lines naming distinct models, all of one type, collect to those models in order. */
  lemma NamedInOrder(entries: seq<Option<(string, string)>>, names: seq<string>, ty: string)
    requires |entries| == |names|
    requires forall i :: 0 <= i < |names| ==> entries[i] == Some((names[i], ty))
    requires forall i, j :: 0 <= i < j < |names| ==> names[i] != names[j]
    ensures |CollectModels(entries)| == |names|
    ensures forall i :: 0 <= i < |names| ==> CollectModels(entries)[i] == (names[i], ty)
  {
    ModelsInOrder(entries);
  }

  /** Every line of a well-formed listing parses to its name and the listed type. */
  lemma ListingEntries(pads: seq<string>, names: seq<string>, ty: string) returns (entries: seq<Option<(string, string)>>)
    requires WellFormedListing(pads, names, ty)
    ensures entries == ParsedModelLines(Listing(pads, names, ty))
    ensures |entries| == |names|
    ensures forall i :: 0 <= i < |names| ==> entries[i] == Some((names[i], ty))
  {
    var ls := Listing(pads, names, ty);
    entries := ParsedModelLines(ls);
    forall i | 0 <= i < |ls| ensures entries[i] == Some((names[i], ty)) {
      assert ls[i] == pads[i] + names[i] + ", " + ty;
      ModelLine(pads[i], names[i], ty);
    }
  }

  /**
   * The built-in list parses to thirteen models, all of type "chat", in the
   * order they are written.
   */
  lemma DefaultModelsParse()
    ensures |ParseModels(DefaultModels)| == 13
    ensures forall i :: 0 <= i < 13 ==> ParseModels(DefaultModels)[i] == (DefaultModelNames[i], "chat")
  {
    DefaultListingWellFormed();
    DefaultNamesDistinct();
    ListingParses(DefaultPads(), DefaultModelNames, "chat");
  }

  lemma DefaultListingWellFormed()
    ensures WellFormedListing(DefaultPads(), DefaultModelNames, "chat")
  {
    assert forall i :: 0 <= i < 13 ==> PlainWord(DefaultModelNames[i]);
  }

  lemma DefaultNamesDistinct()
    ensures forall i, j :: 0 <= i < j < |DefaultModelNames| ==> DefaultModelNames[i] != DefaultModelNames[j]
  {
  }

  // ---------------------------------------------------------------------------

  /**
   * The static `user_has_questions_left($modid, $userid)`: the same rule as the
   * completion's check, but with the limit read straight from the instance record.
   */
  function StaticHasQuestionsLeft(instance: map<string, Value>, counter: int): (r: bool)
    ensures var limit := Index(instance, "questionlimit");
      (limit.Int? || (limit.Str? && IsIntegerText(limit.s))) ==> (r <==> Completion.QuestionsLeft(IntOf(limit), counter))
    ensures Index(instance, "questionlimit") == Null ==> r
    ensures Index(instance, "questionlimit") == Str("") ==> !r
    ensures var limit := Index(instance, "questionlimit");
      Completion.TextLimit(limit) ==> (r <==> StrLess(IntToString(counter), limit.s))
    ensures var limit := Index(instance, "questionlimit");
      limit.Str? && IsNumeric(limit.s) ==> (r <==> Parse(limit.s).digits == 0 || Below(counter, Parse(limit.s)))
  {
    var limit := Index(instance, "questionlimit");
    LooseIsInteger(counter, limit);
    EmptyText(counter);
    Completion.LimitAllows(limit, counter)
  }

  /** When instance settings are allowed and the instance sets a limit, both quota checks agree. */
  lemma QuotaChecksAgree(site: Site, counter: int)
    requires AllowInstanceSettings(site.config) && InstanceHas(site.instance, "questionlimit")
    ensures StaticHasQuestionsLeft(site.instance, counter) == Completion.UserHasQuestionsLeft(site, counter)
  {
  }

  /** With instance settings off, the completion uses the site limit while the static check still reads the instance. */
  lemma QuotaChecksDiffer()
    ensures var site := Site(map["questionlimit" := "1"], map["questionlimit" := Int(0)]);
      StaticHasQuestionsLeft(site.instance, 5) && !Completion.UserHasQuestionsLeft(site, 5)
  {
    var site := Site(map["questionlimit" := "1"], map["questionlimit" := Int(0)]);
    assert !AllowInstanceSettings(site.config);
    assert GetSetting(site, "questionlimit", Int(0)) == Str("1");
    assert IsIntegerText("1");
    CountRoundTrip(1);
    assert NatToString(1) == "1";
  }

  /** `get_type_to_display()`: the configured API type when it is set and truthy, else "chat". */
  function TypeToDisplay(config: map<string, string>): (r: Value)
    ensures Truthy(r)
    ensures Truthy(GetConfig(config, "type")) ==> r == GetConfig(config, "type")
    ensures !Truthy(GetConfig(config, "type")) ==> r == Str("chat")
  {
    var t := GetConfig(config, "type");
    if Truthy(t) then t else Str("chat")
  }
}

=== FILE: numeric.dfy ===
/**
 * PHP 8's numeric strings and the loose comparisons the question quota makes
 * between an integer and a setting value: `is_numeric`, the exact number a
 * numeric string denotes, the byte order of strings, and `$v == 0` and
 * `$i < $v` for a scalar `$v`.
 */
module Numeric {
  import opened Php
  import opened Strings

  // ---------------------------------------------------------------------------
  // Numeric strings.

  /** The whitespace PHP 8 allows before and after a number: " \t\n\r\v\f". */
  predicate NumericSpace(c: char) {
    c == ' ' || c == '\t' || c == '\n' || c == '\r' || c == '\U{000B}' || c == '\U{000C}'
  }

  /** The text without the whitespace allowed around a number. */
  function Unpad(s: string): (r: string)
    ensures |r| <= |s|
    ensures r == "" || !NumericSpace(r[0])
    decreases |s|
  {
    if |s| > 0 && NumericSpace(s[0]) then Unpad(s[1..])
    else if |s| > 0 && NumericSpace(s[|s| - 1]) then Unpad(s[..|s| - 1])
    else s
  }

  /** The text after an optional leading sign. */
  function Unsigned(s: string): (r: string)
    ensures |r| <= |s|
  {
    if |s| > 0 && (s[0] == '+' || s[0] == '-') then s[1..] else s
  }

  /** An optional sign followed by at least one digit. */
  predicate SignedDigits(s: string) {
    |Unsigned(s)| > 0 && AllDigits(Unsigned(s))
  }

  /** Digits with at most one decimal point and at least one digit. */
  predicate IsMantissa(m: string) {
    var p := IndexOf(m, '.');
    if p == |m| then |m| > 0 && AllDigits(m)
    else |m| > 1 && AllDigits(m[..p]) && AllDigits(m[p + 1..])
  }

  /** Where the exponent marker `e` or `E` is, or the length when there is none. */
  function ExponentAt(body: string): (e: nat)
    ensures e <= |body|
    ensures e < |body| ==> body[e] == 'e' || body[e] == 'E'
    ensures forall k :: 0 <= k < e ==> body[k] != 'e' && body[k] != 'E'
  {
    var lower := IndexOf(body, 'e');
    var upper := IndexOf(body, 'E');
    if lower < upper then lower else upper
  }

  /** A sign, a mantissa and an optional exponent of signed digits, with nothing around them. */
  predicate NumberText(t: string) {
    var body := Unsigned(t);
    var e := ExponentAt(body);
    IsMantissa(body[..e]) && (e == |body| || SignedDigits(body[e + 1..]))
  }

  /** `is_numeric($s)` in PHP 8: a number, with whitespace allowed before and after it. */
  predicate IsNumeric(s: string) {
    NumberText(Unpad(s))
  }

  /** An exact decimal number: minus when `negative`, `digits` × 10^`exp`. */
  datatype Decimal = Decimal(negative: bool, digits: nat, exp: int)

  function Pow10(n: nat): (r: nat)
    ensures r >= 1
  {
    if n == 0 then 1 else 10 * Pow10(n - 1)
  }

  /** The integer that signed digits spell. */
  function SignedValue(s: string): (n: int)
    requires SignedDigits(s)
    ensures s[0] != '-' ==> n == DecimalValue(Unsigned(s))
    ensures s[0] == '-' ==> n == -(DecimalValue(Unsigned(s)) as int)
  {
    var v := DecimalValue(Unsigned(s)) as int;
    if s[0] == '-' then -v else v
  }

  /** A mantissa as its digits read as one integer, and the number of digits after the point. */
  function MantissaValue(m: string): (r: (nat, nat))
    requires IsMantissa(m)
    ensures IndexOf(m, '.') == |m| ==> r == (DecimalValue(m), 0)
  {
    var p := IndexOf(m, '.');
    if p == |m| then (DecimalValue(m), 0)
    else
      var fraction := m[p + 1..];
      (DecimalValue(m[..p]) * Pow10(|fraction|) + DecimalValue(fraction), |fraction|)
  }

  /** The number a numeric string denotes, kept exact. */
  function Parse(s: string): (d: Decimal)
    requires IsNumeric(s)
  {
    var t := Unpad(s);
    var body := Unsigned(t);
    var e := ExponentAt(body);
    var m := MantissaValue(body[..e]);
    var exp := if e == |body| then 0 else SignedValue(body[e + 1..]);
    Decimal(|t| > 0 && t[0] == '-', m.0, exp - m.1)
  }

  /** The decimal's numerator once the exponent is negative or zero. */
  function Scaled(d: Decimal): int {
    var v := if d.negative then -(d.digits as int) else d.digits as int;
    if d.exp >= 0 then v * Pow10(d.exp) else v
  }

  /** `$i < $d` compared exactly: `i` × 10^(−exp) against the digits when the exponent is negative. */
  predicate Below(i: int, d: Decimal) {
    if d.exp >= 0 then i < Scaled(d) else i * Pow10(-d.exp) < Scaled(d)
  }

  /** A decimal literal reads as the integer it spells, with no scaling. */
  lemma ParseInteger(s: string)
    requires IsIntegerText(s)
    ensures IsNumeric(s)
    ensures Parse(s) == Decimal(s[0] == '-', if s[0] == '-' then DecimalValue(s[1..]) else DecimalValue(s), 0)
  {
    UnpadInteger(s);
    var body := Unsigned(s);
    assert body == if s[0] == '-' then s[1..] else s;
    DigitsOnly(body);
    assert body[..|body|] == body;
  }

  /** A decimal literal has nothing around it to strip. */
  lemma UnpadInteger(s: string)
    requires IsIntegerText(s)
    ensures Unpad(s) == s
  {
    assert IsDigit(s[|s| - 1]) by {
      if s[0] == '-' {
        assert s[|s| - 1] == s[1..][|s| - 2];
      }
    }
  }

  /** Digits hold neither an exponent marker nor a decimal point. */
  lemma DigitsOnly(body: string)
    requires AllDigits(body)
    ensures ExponentAt(body) == |body| && IndexOf(body, '.') == |body|
  {
    forall k | 0 <= k < |body| ensures body[k] != 'e' && body[k] != 'E' && body[k] != '.' {
      assert IsDigit(body[k]);
    }
  }

  /** Below an integer-valued decimal is the integer comparison. */
  lemma BelowInteger(i: int, negative: bool, n: nat)
    ensures Below(i, Decimal(negative, n, 0)) <==> i < (if negative then -(n as int) else n as int)
  {
  }

  /** A lower integer is below whatever a higher one is below. */
  lemma BelowMonotone(i: int, j: int, d: Decimal)
    requires j <= i && Below(i, d)
    ensures Below(j, d)
  {
    if d.exp < 0 {
      var p := Pow10(-d.exp);
      assert j * p <= i * p by {
        assert (i - j) * p >= 0;
      }
    }
  }

  // ---------------------------------------------------------------------------
  // String order.

  /** `strcmp($a, $b) < 0`: the first differing character decides, and a proper prefix comes first. */
  predicate StrLess(a: string, b: string)
    decreases |a|
  {
    if |b| == 0 then false
    else if |a| == 0 then true
    else if a[0] != b[0] then a[0] < b[0]
    else StrLess(a[1..], b[1..])
  }

  // ---------------------------------------------------------------------------
  // Loose comparison of a scalar with an integer.

  /**
   * PHP 8's `$v == 0`: null and booleans compare as booleans, a numeric string
   * by its number, and any other string as text against "0", which never matches.
   */
  predicate EqualsZero(v: Value) {
    match v
    case Null => true
    case Bool(b) => !b
    case Int(n) => n == 0
    case Str(s) => IsNumeric(s) && Parse(s).digits == 0
  }

  /**
   * PHP 8's `$i < $v` for an integer `$i`: against null or a boolean both sides
   * are read as booleans; a numeric string compares by its number; any other
   * string compares as text with the integer's decimal spelling.
   */
  predicate IntBelow(i: int, v: Value) {
    match v
    case Null => false
    case Bool(b) => b && i == 0
    case Int(n) => i < n
    case Str(s) => if IsNumeric(s) then Below(i, Parse(s)) else StrLess(IntToString(i), s)
  }

  /** An integer, or a string that spells one, compares loosely exactly as its integer reading does. */
  lemma LooseIsInteger(i: int, v: Value)
    ensures v.Int? || (v.Str? && IsIntegerText(v.s)) ==>
              (EqualsZero(v) <==> IntOf(v) == 0) && (IntBelow(i, v) <==> i < IntOf(v))
  {
    if v.Str? && IsIntegerText(v.s) {
      ParseInteger(v.s);
      var s := v.s;
      if s[0] == '-' {
        BelowInteger(i, true, DecimalValue(s[1..]));
      } else {
        BelowInteger(i, false, DecimalValue(s));
      }
    }
  }

  /** The empty string is not 0 and no integer is below it. */
  lemma EmptyText(i: int)
    ensures !EqualsZero(Str(""))
    ensures !IntBelow(i, Str(""))
  {
    assert Unpad("") == "";
    assert !NumberText("");
  }

  lemma DigitFive()
    ensures DecimalValue("5") == 5 && DecimalValue("0") == 0
  {
    assert "5"[..0] == "" && "0"[..0] == "";
  }

  /** "5.0" is read as 50 × 10^(−1). */
  lemma ParseFivePointZero()
    ensures IsNumeric("5.0") && Parse("5.0") == Decimal(false, 50, -1)
  {
    FivePointZeroText();
    DigitFive();
    assert MantissaValue("5.0") == (50, 1);
  }

  lemma FivePointZeroText()
    ensures Unpad("5.0") == "5.0" && Unsigned("5.0") == "5.0" && ExponentAt("5.0") == 3
    ensures IndexOf("5.0", '.') == 1 && "5.0"[..3] == "5.0" && "5.0"[..1] == "5" && "5.0"[2..] == "0"
  {
    var t := "5.0";
    assert t[0] == '5' && t[1] == '.' && t[2] == '0';
    assert !NumericSpace(t[0]) && !NumericSpace(t[2]);
    assert IndexOf(t, 'e') == 3 && IndexOf(t, 'E') == 3;
  }

  /** " 5" is read as five: the leading space is allowed. */
  lemma ParsePaddedFive()
    ensures IsNumeric(" 5") && Parse(" 5") == Decimal(false, 5, 0)
  {
    PaddedFiveText();
    DigitFive();
  }

  lemma PaddedFiveText()
    ensures Unpad(" 5") == "5" && Unsigned("5") == "5" && ExponentAt("5") == 1
    ensures IndexOf("5", '.') == 1 && "5"[..1] == "5"
  {
    assert " 5"[1..] == "5";
  }

  /** Non-integer numeric text compares by its value: "5.0" and " 5" are both five, though neither is an integer literal. */
  lemma FractionAndPadding()
    ensures IsNumeric("5.0") && !IsIntegerText("5.0") && !IntBelow(7, Str("5.0")) && IntBelow(4, Str("5.0"))
    ensures !IntBelow(5, Str("5.0")) && !IntBelow(10, Str("5.0"))
    ensures IsNumeric(" 5") && !IsIntegerText(" 5") && !IntBelow(7, Str(" 5")) && IntBelow(4, Str(" 5"))
    ensures !IntBelow(5, Str(" 5"))
  {
    FractionCompares();
    PaddingCompares();
  }

  lemma FractionCompares()
    ensures IsNumeric("5.0") && !IsIntegerText("5.0") && !IntBelow(7, Str("5.0")) && IntBelow(4, Str("5.0"))
    ensures !IntBelow(5, Str("5.0")) && !IntBelow(10, Str("5.0"))
  {
    ParseFivePointZero();
    assert Pow10(1) == 10;
    assert !IsDigit("5.0"[1]);
  }

  lemma PaddingCompares()
    ensures IsNumeric(" 5") && !IsIntegerText(" 5") && !IntBelow(7, Str(" 5")) && IntBelow(4, Str(" 5"))
    ensures !IntBelow(5, Str(" 5"))
  {
    ParsePaddedFive();
    assert !IsDigit(" 5"[0]);
  }
}

=== FILE: php.dfy ===
/**
 * The slice of PHP's value model that the activity's settings and records use:
 * scalars read from the site configuration, from an instance record, or from a
 * decoded request, together with PHP's truthiness rule and the string and
 * integer conversions the code relies on.
 */
module Php {

  datatype Option<+T> = None | Some(value: T) {
    function GetOr(default: T): T {
      match this
      case Some(v) => v
      case None => default
    }
  }

  /** What a piece of code produces: a value, or an exception with its message. */
  datatype Outcome<+T> = Done(value: T) | Raised(reason: string)

  /** A PHP scalar. Floats are not represented. */
  datatype Value = Null | Bool(b: bool) | Int(i: int) | Str(s: string)

  /** `(bool) $v` and `if ($v)`: null, false, 0, "" and "0" are falsy. */
  predicate Truthy(v: Value) {
    match v
    case Null => false
    case Bool(b) => b
    case Int(i) => i != 0
    case Str(s) => s != "" && s != "0"
  }

  /** `$record[$key]` / `$object->$key`: a missing key reads as null. */
  function Index(m: map<string, Value>, key: string): (v: Value)
    ensures key !in m ==> v == Null
    ensures key in m ==> v == m[key]
  {
    if key in m then m[key] else Null
  }

  predicate IsDigit(c: char) {
    '0' <= c <= '9'
  }

  predicate AllDigits(s: string) {
    forall k :: 0 <= k < |s| ==> IsDigit(s[k])
  }

  function DigitChar(d: nat): (c: char)
    requires d < 10
    ensures IsDigit(c)
  {
    "0123456789"[d]
  }

  function DigitValue(c: char): (d: nat)
    requires IsDigit(c)
    ensures d < 10
  {
    (c as int - '0' as int) as nat
  }

  /** Decimal spelling of a natural number, without leading zeros. */
  function NatToString(n: nat): (s: string)
    ensures |s| >= 1
    ensures AllDigits(s)
    decreases n
  {
    if n < 10 then [DigitChar(n)] else NatToString(n / 10) + [DigitChar(n % 10)]
  }

  /** The number a string of decimal digits denotes. */
  function DecimalValue(s: string): (n: nat)
    requires AllDigits(s)
    decreases |s|
  {
    if |s| == 0 then 0 else 10 * DecimalValue(s[..|s| - 1]) + DigitValue(s[|s| - 1])
  }

  lemma DigitRoundTrip(d: nat)
    requires d < 10
    ensures DigitValue(DigitChar(d)) == d
  {
    assert "0123456789"[d] as int == '0' as int + d;
  }

  /** Reading back the decimal spelling of `n` gives `n`. */
  lemma {:induction false} DecimalRoundTrip(n: nat)
    ensures DecimalValue(NatToString(n)) == n
    decreases n
  {
    if n < 10 {
      DigitRoundTrip(n);
    } else {
      var s := NatToString(n);
      DecimalRoundTrip(n / 10);
      DigitRoundTrip(n % 10);
      assert s[..|s| - 1] == NatToString(n / 10);
    }
  }

  /** `(string) $i` for an integer. */
  function IntToString(i: int): (s: string)
    ensures |s| >= 1
  {
    if i < 0 then "-" + NatToString(-i) else NatToString(i)
  }

  /** `(string) $v`, as used by `explode` on a setting value. */
  function ToPhpString(v: Value): (s: string)
    ensures !Truthy(v) && v != Int(0) && v != Str("0") ==> s == ""
    ensures v.Str? ==> s == v.s
  {
    match v
    case Null => ""
    case Bool(b) => if b then "1" else ""
    case Int(i) => IntToString(i)
    case Str(s) => s
  }

  /** A decimal integer literal: optional minus sign, then at least one digit. */
  predicate IsIntegerText(s: string) {
    if |s| > 0 && s[0] == '-' then |s| > 1 && AllDigits(s[1..]) else |s| > 0 && AllDigits(s)
  }

  /**
   * The integer a setting stands for when it is used as a count: an integer,
   * or a string holding a decimal integer literal; anything else reads as 0.
   */
  function IntOf(v: Value): (n: int)
    ensures v.Int? ==> n == v.i
    ensures !Truthy(v) ==> n == 0
  {
    match v
    case Int(i) => i
    case Str(s) =>
      assert s == "0" ==> DecimalValue(s) == 0 by {
        if s == "0" {
          assert s[..0] == "";
        }
      }
      if !IsIntegerText(s) then 0
      else if s[0] == '-' then 0 - DecimalValue(s[1..]) as int
      else DecimalValue(s)
    case _ => 0
  }

  /** Reading a natural number's decimal spelling as a count gives the number back. */
  lemma CountRoundTrip(n: nat)
    ensures IntOf(Str(NatToString(n))) == n
  {
    var s := NatToString(n);
    assert IsDigit(s[0]);
    assert IsIntegerText(s);
    DecimalRoundTrip(n);
  }
}

=== FILE: provider.dfy ===
/**
 * The remote provider as the assistant flow sees it, with the HTTP helper
 * replaced by a script: the k-th request of a run receives the k-th scripted
 * reply (a network failure once the script is exhausted), and each reply takes
 * a scripted number of milliseconds. Time only moves forward: by the latency
 * of a request, or by a sleep.
 */
module Provider {
  import opened Php

  /** The header every Assistants API request carries. */
  const Beta := "OpenAI-Beta: assistants=v2"

  /**
   * A response's `error` member: absent; present but falsy (null, false, "");
   * or truthy, with the `message` it carries when it is an object that has one.
   */
  datatype ErrorField = NoError | FalsyError | ErrorObject(message: Option<string>)

  /** One content block of a thread message: its `type` and its `text->value`. */
  datatype Block = Block(kind: Option<string>, text: Option<string>)

  /** One entry of a message list's `data`. */
  datatype Message = Message(id: Option<string>, role: Option<string>, content: seq<Block>)

  /**
   * A decoded response: something other than an object (a transport failure,
   * undecodable JSON), or an object with the members the flow reads.
   */
  datatype Response =
    | NotObject
    | Object(error: ErrorField, id: Option<string>, status: Option<string>, data: Option<seq<Message>>)

  /** The request body: none (a GET), or one of the three POST bodies the flow sends. */
  datatype Payload =
    | NoPayload
    | EmptyObject
    | UserMessage(role: string, content: Value)
    | StartRun(assistant: Value, instructions: Value)

  /** The endpoint addressed: `/threads`, or a thread's messages, runs, or one run. */
  datatype Resource =
    | Threads
    | ThreadMessages(thread: string)
    | ThreadRuns(thread: string)
    | ThreadRun(thread: string, run: string)

  datatype Call = Call(resource: Resource, modid: Value, payload: Payload, headers: seq<string>)

  /** A non-null payload makes the helper send a POST; a null one a GET. */
  predicate IsPost(c: Call) {
    !c.payload.NoPayload?
  }

  /** The full request URL for a resource. */
  function Url(r: Resource): string {
    match r
    case Threads => "https://api.openai.com/v1/threads"
    case ThreadMessages(t) => "https://api.openai.com/v1/threads/" + t + "/messages"
    case ThreadRuns(t) => "https://api.openai.com/v1/threads/" + t + "/runs"
    case ThreadRun(t, run) => "https://api.openai.com/v1/threads/" + t + "/runs/" + run
  }

  /** A scripted reply and how long the request takes. */
  datatype Reply = Reply(response: Response, latency: nat)

  /** The clock in milliseconds and every request made so far. */
  datatype World = World(now: int, trace: seq<Call>)

  /** The reply to the k-th request: its scripted response, or a failure past the script's end. */
  function ResponseAt(script: seq<Reply>, k: nat): Response {
    if k < |script| then script[k].response else NotObject
  }

  function LatencyAt(script: seq<Reply>, k: nat): nat {
    if k < |script| then script[k].latency else 0
  }

  datatype Exchange = Exchange(response: Response, world: World)

  /** One request: it is recorded, answered by the script, and takes the scripted time. */
  function Send(script: seq<Reply>, w: World, c: Call): (x: Exchange)
    ensures x.world.trace == w.trace + [c]
    ensures x.response == ResponseAt(script, |w.trace|)
    ensures w.now <= x.world.now
  {
    Exchange(ResponseAt(script, |w.trace|), World(w.now + LatencyAt(script, |w.trace|), w.trace + [c]))
  }

  /** `usleep`: the clock moves by exactly the given time and no request is made. */
  function Sleep(w: World, ms: nat): (w': World)
    ensures w'.trace == w.trace && w'.now == w.now + ms
  {
    World(w.now + ms, w.trace)
  }

  /** `w'` is a later state of `w`: the clock has not gone back and the trace has only grown. */
  predicate Extends(w: World, w': World) {
    w.now <= w'.now && |w.trace| <= |w'.trace| && w'.trace[..|w.trace|] == w.trace
  }

  /** A request that addresses the given thread and carries the beta header. */
  predicate OnThread(c: Call, t: string) {
    !c.resource.Threads? && c.resource.thread == t && c.headers == [Beta]
  }

  /** Every request made between `w` and `w'` addresses thread `t`. */
  predicate AllOnThread(w: World, w': World, t: string) {
    forall k :: |w.trace| <= k < |w'.trace| ==> OnThread(w'.trace[k], t)
  }

  lemma ExtendsTrans(w1: World, w2: World, w3: World)
    requires Extends(w1, w2) && Extends(w2, w3)
    ensures Extends(w1, w3)
  {
    assert w3.trace[..|w1.trace|] == w3.trace[..|w2.trace|][..|w1.trace|];
  }

  /** Extending a state that added a request keeps that request at its position. */
  lemma ExtendsKeeps(w1: World, w2: World, w3: World)
    requires Extends(w1, w2) && Extends(w2, w3) && |w1.trace| < |w2.trace|
    ensures Extends(w1, w3)
    ensures w3.trace[|w1.trace|] == w2.trace[|w1.trace|]
  {
    ExtendsTrans(w1, w2, w3);
    assert w3.trace[|w1.trace|] == w3.trace[..|w2.trace|][|w1.trace|];
  }

  /** A later state keeps every request of an intermediate one at its position. */
  lemma ExtendsKeepsAll(w1: World, w2: World, w3: World)
    requires Extends(w1, w2) && Extends(w2, w3)
    ensures Extends(w1, w3)
    ensures forall k :: 0 <= k < |w2.trace| ==> w3.trace[k] == w2.trace[k]
  {
    ExtendsTrans(w1, w2, w3);
    assert forall k :: 0 <= k < |w2.trace| ==> w3.trace[k] == w3.trace[..|w2.trace|][k];
  }

  lemma OnThreadTrans(w1: World, w2: World, w3: World, t: string)
    requires Extends(w1, w2) && Extends(w2, w3)
    requires AllOnThread(w1, w2, t) && AllOnThread(w2, w3, t)
    ensures AllOnThread(w1, w3, t)
  {
    forall k | |w1.trace| <= k < |w3.trace| ensures OnThread(w3.trace[k], t) {
      if k < |w2.trace| {
        assert w3.trace[k] == w3.trace[..|w2.trace|][k];
      }
    }
  }
}

=== FILE: scenarios.dfy ===
/**
 * Concrete requests to the assistant engine, each against a scripted
 * provider: the path that ends with a reply, and the two ways of giving up on
 * time.
 */
module Scenarios {
  import opened Php
  import opened Settings
  import opened Completion
  import opened Provider
  import opened Assistant

  /** A site with no configuration at all: no question limit, no instance settings. */
  const Bare := Site(map[], map[])

  const Thread := "thread_abc"

  function Ok(id: string, latency: nat): Reply {
    Reply(Object(NoError, Some(id), None, None), latency)
  }

  function ListReply(data: seq<Message>, latency: nat): Reply {
    Reply(Object(NoError, None, None, Some(data)), latency)
  }

  function Status(status: string, latency: nat): Reply {
    Reply(Object(NoError, None, Some(status), None), latency)
  }

  const Question := Message(Some("msg_1"), Some("user"), [Block(Some("text"), Some("Hi?"))])
  const Answered := Message(Some("msg_2"), Some("assistant"), [Block(Some("image_file"), None), Block(Some("text"), Some("Hello"))])

  /** Post, listed at once, run started, completed at the first look, reply fetched. */
  const HappyScript := [
    Ok("msg_1", 100), ListReply([Question], 100), Ok("run_1", 100),
    Status("completed", 100), ListReply([Answered, Question], 100)
  ]

  lemma QuestionsUnlimited(counter: int)
    ensures UserHasQuestionsLeft(Bare, counter)
  {
    assert GetSetting(Bare, "questionlimit", Int(0)) == Bool(false);
  }

  /** The fetched list's first assistant message with text is the reply; its image block adds nothing. */
  lemma HappyReply()
    ensures ReplyAnswer(ResponseAt(HappyScript, 4), Str(Thread)) == Answer(Some("msg_2"), Some("Hello"), Str(Thread))
  {
    TextOfBlock(Block(Some("image_file"), None));
    TextOfBlock(Block(Some("text"), Some("Hello")));
    TextOfAppend([Block(Some("image_file"), None)], [Block(Some("text"), Some("Hello"))]);
    assert [Block(Some("image_file"), None)] + [Block(Some("text"), Some("Hello"))] == Answered.content;
    assert TextOf(Answered.content) == "" + "Hello" == "Hello";
    assert IsReply(Answered);
    assert FirstReply([Answered, Question]) == Some(0);
  }

  lemma HappyFollow(e: Engine, w: World)
    requires |w.trace| == 3
    ensures var s := Follow(e, Str(Thread), "run_1", HappyScript, w);
      s.outcome == Done(Answer(Some("msg_2"), Some("Hello"), Str(Thread))) && |s.world.trace| == 5 && s.world.now == w.now + 200
  {
    var pr := PollRun(e, Thread, "run_1", w.now, HappyScript, w);
    assert StatusOf(ResponseAt(HappyScript, 3)) == "completed";
    assert ThreadPath(Str(Thread)) == Thread;
    assert pr.end == Completed && |pr.world.trace| == 4 && pr.world.now == w.now + 100;
    HappyReply();
  }

  lemma HappyDeliver(e: Engine, w: World)
    requires |w.trace| == 1
    ensures var s := Deliver(e, Str(Thread), "msg_1", HappyScript, w);
      s.outcome == Done(Answer(Some("msg_2"), Some("Hello"), Str(Thread))) && |s.world.trace| == 5 && s.world.now == w.now + 400
  {
    assert ThreadPath(Str(Thread)) == Thread;
    assert Lists(ResponseAt(HappyScript, 1), "msg_1") by {
      assert ResponseAt(HappyScript, 1).data.value[0].id == Some("msg_1");
    }
    var p := PollMessages(e, Thread, "msg_1", w.now, HappyScript, w);
    assert p.found && |p.world.trace| == 2 && p.world.now == w.now + 100;
    HappyRun(e, p.world);
  }

  lemma HappyRun(e: Engine, w: World)
    requires |w.trace| == 2
    ensures var s := Run(e, Str(Thread), HappyScript, w);
      s.outcome == Done(Answer(Some("msg_2"), Some("Hello"), Str(Thread))) && |s.world.trace| == 5 && s.world.now == w.now + 300
  {
    var x := Send(HappyScript, w, StartRunCall(e, Str(Thread)));
    assert x.response == Object(NoError, Some("run_1"), None, None);
    HappyFollow(e, x.world);
  }

  /**
   * On an existing thread, five requests end with the first assistant message's
   * text and id; non-text blocks contribute nothing.
   */
  lemma HappyPath(e: Engine)
    ensures var s := Flow(Bare, 3, e, Str(Thread), HappyScript, World(0, []));
      && s.outcome == Done(Answer(Some("msg_2"), Some("Hello"), Str(Thread)))
      && |s.world.trace| == 5
      && s.world.now == 500
  {
    QuestionsUnlimited(3);
    assert ThreadPath(Str(Thread)) == Thread;
    var added := AddMessage(e, Thread, HappyScript, World(0, []));
    assert added.outcome == Done("msg_1");
    HappyDeliver(e, added.world);
  }

  /** A new thread, a message post, then two slow listings that never show the message. */
  const LostScript := [
    Ok("thread_new", 100), Ok("msg_1", 100), ListReply([], 2500), ListReply([Answered], 2500)
  ]

  lemma LostDeliver(e: Engine, w: World)
    requires |w.trace| == 2
    ensures var s := Deliver(e, Str("thread_new"), "msg_1", LostScript, w);
      s.outcome == Done(Answer(None, Some(NotPersisted), Str("thread_new"))) && |s.world.trace| == 4 && s.world.now == w.now + 5600
  {
    assert ThreadPath(Str("thread_new")) == "thread_new";
    assert !Lists(ResponseAt(LostScript, 2), "msg_1");
    assert !Lists(ResponseAt(LostScript, 3), "msg_1") by {
      assert ResponseAt(LostScript, 3).data.value == [Answered];
    }
    var x := Send(LostScript, w, OnThreadCall(e, ThreadMessages("thread_new"), NoPayload));
    var w' := Sleep(x.world, MessagePause);
    var p := PollMessages(e, "thread_new", "msg_1", w.now, LostScript, w');
    assert !p.found && |p.world.trace| == 4 && p.world.now == w.now + 5600;
  }

  /**
   * Without a thread id the engine creates one; a message that two listings
   * over more than five seconds do not show ends the request without a run,
   * on the new thread.
   */
  lemma MessageLost(e: Engine)
    ensures var s := Flow(Bare, 0, e, Str(""), LostScript, World(0, []));
      && s.outcome == Done(Answer(None, Some(NotPersisted), Str("thread_new")))
      && |s.world.trace| == 4
      && s.world.trace[0].resource == Threads
      && s.world.now == 5800
  {
    QuestionsUnlimited(0);
    var st := Start(e, Str(""), LostScript, World(0, []));
    assert st.outcome == Done(Str("thread_new")) && st.world.now == 100;
    assert ThreadPath(Str("thread_new")) == "thread_new";
    var added := AddMessage(e, "thread_new", LostScript, st.world);
    assert added.outcome == Done("msg_1") && added.world.now == 200;
    LostDeliver(e, added.world);
  }

  /** Post, listed, run started, then a run that stays queued through two ten-second polls. */
  const SlowScript := [
    Ok("msg_1", 100), ListReply([Question], 100), Ok("run_1", 100),
    Status("queued", 10000), Reply(Object(NoError, None, None, None), 10000)
  ]

  lemma SlowFollow(e: Engine, w: World)
    requires |w.trace| == 3
    ensures var s := Follow(e, Str(Thread), "run_1", SlowScript, w);
      s.outcome == Done(Answer(None, Some(RunTimedOut), Str(Thread))) && |s.world.trace| == 5 && s.world.now == w.now + 20500
  {
    assert ThreadPath(Str(Thread)) == Thread;
    assert StatusOf(ResponseAt(SlowScript, 3)) == "queued";
    assert StatusOf(ResponseAt(SlowScript, 4)) == "unknown";
    var x := Send(SlowScript, w, OnThreadCall(e, ThreadRun(Thread, "run_1"), NoPayload));
    var w' := Sleep(x.world, RunPause);
    var pr := PollRun(e, Thread, "run_1", w.now, SlowScript, w');
    assert pr.end == TimedOut && |pr.world.trace| == 5 && pr.world.now == w.now + 20500;
  }

  /**
   * A run still queued, and then without any status, after more than twenty
   * seconds ends with the timeout message; no fetch is made.
   */
  lemma RunTimesOut(e: Engine)
    ensures var s := Flow(Bare, 0, e, Str(Thread), SlowScript, World(0, []));
      && s.outcome == Done(Answer(None, Some(RunTimedOut), Str(Thread)))
      && |s.world.trace| == 5
      && s.world.trace[4].resource == ThreadRun(Thread, "run_1")
  {
    QuestionsUnlimited(0);
    assert ThreadPath(Str(Thread)) == Thread;
    var added := AddMessage(e, Thread, SlowScript, World(0, []));
    assert added.outcome == Done("msg_1");
    SlowDeliver(e, added.world);
  }

  lemma SlowDeliver(e: Engine, w: World)
    requires |w.trace| == 1
    ensures var s := Deliver(e, Str(Thread), "msg_1", SlowScript, w);
      && s.outcome == Done(Answer(None, Some(RunTimedOut), Str(Thread)))
      && |s.world.trace| == 5
      && s.world.trace[4].resource == ThreadRun(Thread, "run_1")
  {
    assert ThreadPath(Str(Thread)) == Thread;
    assert Lists(ResponseAt(SlowScript, 1), "msg_1") by {
      assert ResponseAt(SlowScript, 1).data.value[0].id == Some("msg_1");
    }
    var p := PollMessages(e, Thread, "msg_1", w.now, SlowScript, w);
    assert p.found && |p.world.trace| == 2;
    SlowRun(e, p.world);
  }

  lemma SlowRun(e: Engine, w: World)
    requires |w.trace| == 2
    ensures var s := Run(e, Str(Thread), SlowScript, w);
      && s.outcome == Done(Answer(None, Some(RunTimedOut), Str(Thread)))
      && |s.world.trace| == 5
      && s.world.trace[4].resource == ThreadRun(Thread, "run_1")
  {
    var x := Send(SlowScript, w, StartRunCall(e, Str(Thread)));
    assert x.response == Object(NoError, Some("run_1"), None, None);
    SlowFollow(e, x.world);
  }
}

=== FILE: settings.dfy ===
/**
 * Settings resolution for one activity instance (classes/completion.php): the
 * site-wide plugin configuration, the instance record, the lookup that lets a
 * non-empty instance value win when instance-level settings are allowed, and
 * the parser for the free-form "advanced settings" block.
 */
module Settings {
  import opened Php
  import opened Strings
  import opened Numeric

  /** The plugin's site configuration (string values) and the instance's database record. */
  datatype Site = Site(config: map<string, string>, instance: map<string, Value>)

  /** `get_config('mod_openaichat', key)`: the stored string, or `false` when unset. */
  function GetConfig(config: map<string, string>, key: string): (v: Value)
    ensures key in config <==> v.Str?
    ensures key in config ==> v == Str(config[key])
    ensures key !in config ==> v == Bool(false)
  {
    if key in config then Str(config[key]) else Bool(false)
  }

  /** The switch for instance-level settings is on only when it is stored as exactly "1". */
  predicate AllowInstanceSettings(config: map<string, string>) {
    GetConfig(config, "allowinstancesettings") == Str("1")
  }

  /** The instance record holds a usable value for `name`: set, not null, not the empty string. */
  predicate InstanceHas(instance: map<string, Value>, name: string) {
    name in instance && instance[name] != Null && instance[name] != Str("")
  }

  /**
   * `get_setting(name, default)`: the instance value when instance-level settings
   * are allowed and the instance holds a usable value, else the site value.
   * The `default` argument is accepted and never used.
   */
  function GetSetting(site: Site, name: string, default: Value): (v: Value)
    ensures AllowInstanceSettings(site.config) && InstanceHas(site.instance, name) ==> v == site.instance[name]
    ensures !(AllowInstanceSettings(site.config) && InstanceHas(site.instance, name)) ==> v == GetConfig(site.config, name)
    ensures v != Null
    ensures v == Str("") ==> name in site.config && site.config[name] == ""
  {
    if AllowInstanceSettings(site.config) && InstanceHas(site.instance, name) then site.instance[name]
    else GetConfig(site.config, name)
  }

  /** The value passed as `default` never influences the result. */
  lemma SettingIgnoresDefault(site: Site, name: string, d1: Value, d2: Value)
    ensures GetSetting(site, name, d1) == GetSetting(site, name, d2)
    ensures d1 != Null && d1 != Bool(false) && name !in site.config && !InstanceHas(site.instance, name)
            ==> GetSetting(site, name, d1) != d1
  {
  }

  /** With instance-level settings switched off the instance record is never consulted. */
  lemma SiteOnlyWhenDisallowed(site: Site, instance': map<string, Value>, name: string, d: Value)
    requires !AllowInstanceSettings(site.config)
    ensures GetSetting(site, name, d) == GetSetting(Site(site.config, instance'), name, d)
  {
  }

  // ---------------------------------------------------------------------------
  // Advanced settings: one "key: value" pair per line.

  /** An advanced value: numeric text tagged as an integer or a float, or plain text. */
  datatype Setting = IntSetting(text: string) | FloatSetting(text: string) | TextSetting(text: string)

  /** A numeric value is a float when it contains '.', an integer otherwise; anything else stays text. */
  function Classify(v: string): (r: Setting)
    ensures r.text == v
    ensures r.TextSetting? <==> !IsNumeric(v)
    ensures r.FloatSetting? <==> IsNumeric(v) && '.' in v
  {
    if !IsNumeric(v) then TextSetting(v)
    else if '.' in v then FloatSetting(v)
    else IntSetting(v)
  }

  /** A line with a colon defines the trimmed text before its first colon as a key. */
  function ParseAdvancedLine(line: string): (r: Option<(string, Setting)>)
    ensures r.Some? <==> ':' in line
    ensures r.Some? ==> exists i :: 0 <= i < |line| && line[i] == ':' && ':' !in line[..i]
                                   && r.value == (Trim(line[..i]), Classify(Trim(line[i + 1..])))
  {
    var parts := SplitOnce(line, ':');
    if |parts| == 2 then
      var i := |parts[0]|;
      assert line[..i] == parts[0] && line[i + 1..] == parts[1] && line[i] == ':';
      Some((Trim(parts[0]), Classify(Trim(parts[1]))))
    else None
  }

  /** The parsed form of every line, in order. */
  function ParsedLines(lines: seq<string>): (entries: seq<Option<(string, Setting)>>)
    ensures |entries| == |lines|
    ensures forall i :: 0 <= i < |lines| ==> entries[i] == ParseAdvancedLine(lines[i])
  {
    seq(|lines|, i requires 0 <= i < |lines| => ParseAdvancedLine(lines[i]))
  }

  predicate Defines<V>(entry: Option<(string, V)>, k: string) {
    entry.Some? && entry.value.0 == k
  }

  /** `$map[$name] = $value` for every defining entry, top to bottom. */
  function Collect<V>(entries: seq<Option<(string, V)>>): (r: map<string, V>)
    ensures forall k :: k in r ==> exists i :: 0 <= i < |entries| && Defines(entries[i], k)
    ensures |entries| > 0 && entries[|entries| - 1].Some? ==>
              var kv := entries[|entries| - 1].value; kv.0 in r && r[kv.0] == kv.1
    decreases |entries|
  {
    if |entries| == 0 then map[]
    else
      var m := Collect(entries[..|entries| - 1]);
      match entries[|entries| - 1]
      case None => m
      case Some(kv) => m[kv.0 := kv.1]
  }

  /** The advanced-settings parser applied to the whole block. */
  function ParseAdvanced(text: string): (r: map<string, Setting>)
    ensures forall k :: k in r <==> LinesDefine(Split(text, '\n'), k)
  {
    var lines := Split(text, '\n');
    ParsedKeys(lines);
    Collect(ParsedLines(lines))
  }

  /** Some line of the block defines key `k`. */
  predicate LinesDefine(lines: seq<string>, k: string) {
    exists i :: 0 <= i < |lines| && Defines(ParseAdvancedLine(lines[i]), k)
  }

  /** The keys collected from some lines are the keys those lines define. */
  lemma ParsedKeys(lines: seq<string>)
    ensures forall k :: k in Collect(ParsedLines(lines)) <==> LinesDefine(lines, k)
  {
    var entries := ParsedLines(lines);
    forall k ensures k in Collect(entries) <==> exists i :: 0 <= i < |lines| && Defines(ParseAdvancedLine(lines[i]), k) {
      CollectKeys(entries, k);
      if k in Collect(entries) {
        var i :| 0 <= i < |entries| && Defines(entries[i], k);
        assert Defines(ParseAdvancedLine(lines[i]), k);
      }
      if exists i :: 0 <= i < |lines| && Defines(ParseAdvancedLine(lines[i]), k) {
        var i :| 0 <= i < |lines| && Defines(ParseAdvancedLine(lines[i]), k);
        assert Defines(entries[i], k);
      }
    }
  }

  /** A key is present exactly when some entry defines it. */
  lemma {:induction false} CollectKeys<V>(entries: seq<Option<(string, V)>>, k: string)
    ensures k in Collect(entries) <==> exists i :: 0 <= i < |entries| && Defines(entries[i], k)
    decreases |entries|
  {
    if |entries| > 0 {
      var init := entries[..|entries| - 1];
      CollectKeys(init, k);
      assert forall i :: 0 <= i < |init| ==> init[i] == entries[i];
      if Defines(entries[|entries| - 1], k) {
        assert k in Collect(entries);
      } else if k in Collect(entries) {
        assert k in Collect(init);
        var i :| 0 <= i < |init| && Defines(init[i], k);
        assert Defines(entries[i], k);
      }
    }
  }

  /** A key's value is the one given by the last entry that defines it. */
  lemma {:induction false} CollectLastWins<V>(entries: seq<Option<(string, V)>>, k: string, i: nat)
    requires i < |entries| && Defines(entries[i], k)
    requires forall j :: i < j < |entries| ==> !Defines(entries[j], k)
    ensures k in Collect(entries)
    ensures Collect(entries)[k] == entries[i].value.1
    decreases |entries|
  {
    var init := entries[..|entries| - 1];
    if i < |entries| - 1 {
      assert !Defines(entries[|entries| - 1], k);
      assert init[i] == entries[i];
      CollectLastWins(init, k, i);
    }
  }

  /** A setting's value may itself contain colons: only the first one separates. */
  lemma ValueKeepsColons(name: string, value: string)
    requires ':' !in name
    ensures ParseAdvancedLine(name + ":" + value) == Some((Trim(name), Classify(Trim(value))))
  {
    var line := name + ":" + value;
    assert line[|name|] == ':';
    assert forall k :: 0 <= k < |name| ==> line[k] == name[k];
    var i := IndexOf(line, ':');
    assert i == |name|;
    assert line[..i] == name && line[i + 1..] == value;
  }
}

=== FILE: strings.dfy ===
/**
 * PHP's `explode`, `implode` and `trim` on strings, with the facts the settings
 * parsers need: explode and implode undo each other, the two-piece explode
 * splits at the first delimiter only, and trim removes exactly the leading and
 * trailing whitespace.
 */
module Strings {

  /** The characters PHP's `trim` strips by default: " \t\n\r\0\x0B". */
  predicate IsTrimSpace(c: char) {
    c == ' ' || c == '\t' || c == '\n' || c == '\r' || c == '\0' || c == '\U{000B}'
  }

  /** `explode(d, s)` with a one-character delimiter. */
  function Split(s: string, d: char): (r: seq<string>)
    ensures |r| >= 1
    ensures forall i :: 0 <= i < |r| ==> d !in r[i]
    decreases |s|
  {
    if |s| == 0 then [""]
    else
      var rest := Split(s[1..], d);
      if s[0] == d then [""] + rest else [[s[0]] + rest[0]] + rest[1..]
  }

  /** `implode(d, xs)`. */
  function Join(xs: seq<string>, d: char): string
    decreases |xs|
  {
    if |xs| == 0 then ""
    else if |xs| == 1 then xs[0]
    else xs[0] + [d] + Join(xs[1..], d)
  }

  /** Joining the pieces of an explode gives the original string back. */
  lemma {:induction false} JoinSplit(s: string, d: char)
    ensures Join(Split(s, d), d) == s
    decreases |s|
  {
    if |s| > 0 {
      var rest := Split(s[1..], d);
      JoinSplit(s[1..], d);
      if s[0] == d {
        assert Split(s, d) == [""] + rest;
        assert Join([""] + rest, d) == "" + [d] + Join(rest, d);
        assert s == [s[0]] + s[1..];
      } else {
        var r := Split(s, d);
        assert r == [[s[0]] + rest[0]] + rest[1..];
        if |rest| == 1 {
          assert Join(r, d) == [s[0]] + rest[0];
        } else {
          assert r[1..] == rest[1..];
          assert Join(r, d) == [s[0]] + rest[0] + [d] + Join(rest[1..], d);
          assert Join(rest, d) == rest[0] + [d] + Join(rest[1..], d);
        }
        assert s == [s[0]] + s[1..];
      }
    }
  }

  /** An implode starts with the first piece's first character and ends with the last piece's last one. */
  lemma {:induction false} JoinEnds(xs: seq<string>, d: char)
    requires |xs| >= 1
    requires forall i :: 0 <= i < |xs| ==> |xs[i]| > 0
    ensures |Join(xs, d)| > 0
    ensures Join(xs, d)[0] == xs[0][0]
    ensures Join(xs, d)[|Join(xs, d)| - 1] == xs[|xs| - 1][|xs[|xs| - 1]| - 1]
    decreases |xs|
  {
    if |xs| > 1 {
      JoinEnds(xs[1..], d);
    }
  }

  /** A prefix free of the delimiter stays glued to the first piece. */
  lemma {:induction false} SplitPrefix(a: string, s: string, d: char)
    requires d !in a
    ensures Split(a + s, d) == [a + Split(s, d)[0]] + Split(s, d)[1..]
    decreases |a|
  {
    if |a| > 0 {
      SplitPrefix(a[1..], s, d);
      assert (a + s)[1..] == a[1..] + s;
      assert (a + s)[0] == a[0];
      assert [a[0]] + (a[1..] + Split(s, d)[0]) == a + Split(s, d)[0];
    } else {
      var r := Split(s, d);
      assert a + s == s;
      assert a + r[0] == r[0];
      assert r == [r[0]] + r[1..];
    }
  }

  /** Exploding an implode of delimiter-free pieces gives the pieces back. */
  lemma {:induction false} SplitJoin(xs: seq<string>, d: char)
    requires |xs| >= 1
    requires forall i :: 0 <= i < |xs| ==> d !in xs[i]
    ensures Split(Join(xs, d), d) == xs
    decreases |xs|
  {
    if |xs| == 1 {
      SplitPrefix(xs[0], "", d);
      assert xs[0] + "" == xs[0];
    } else {
      var tail := Join(xs[1..], d);
      SplitJoin(xs[1..], d);
      assert Join(xs, d) == xs[0] + ([d] + tail);
      SplitPrefix(xs[0], [d] + tail, d);
      assert ([d] + tail)[1..] == tail;
      assert Split([d] + tail, d) == [""] + xs[1..];
      assert xs[0] + "" == xs[0];
      assert xs == [xs[0]] + xs[1..];
    }
  }

  /** Position of the first `c` in `s`, or `|s|` when there is none. */
  function IndexOf(s: string, c: char): (i: nat)
    ensures i <= |s|
    ensures i < |s| ==> s[i] == c
    ensures forall k :: 0 <= k < i ==> s[k] != c
    decreases |s|
  {
    if |s| == 0 then 0 else if s[0] == c then 0 else 1 + IndexOf(s[1..], c)
  }

  /**
   * `explode(d, s, 2)`: the text before the first delimiter and everything
   * after it, or the whole string alone when there is no delimiter.
   */
  function SplitOnce(s: string, d: char): (r: seq<string>)
    ensures |r| == 1 || |r| == 2
    ensures |r| == 2 <==> d in s
    ensures |r| == 1 ==> r[0] == s
    ensures |r| == 2 ==> d !in r[0] && s == r[0] + [d] + r[1]
  {
    var i := IndexOf(s, d);
    if i == |s| then [s]
    else
      assert s == s[..i] + [d] + s[i + 1..];
      [s[..i], s[i + 1..]]
  }

  /** Number of trim-space characters at the front of `s`. */
  function LeadingSpace(s: string): (n: nat)
    ensures n <= |s|
    ensures forall k :: 0 <= k < n ==> IsTrimSpace(s[k])
    ensures n < |s| ==> !IsTrimSpace(s[n])
    decreases |s|
  {
    if |s| > 0 && IsTrimSpace(s[0]) then 1 + LeadingSpace(s[1..]) else 0
  }

  /** Number of trim-space characters at the back of `s`. */
  function TrailingSpace(s: string): (n: nat)
    ensures n <= |s|
    ensures forall k :: |s| - n <= k < |s| ==> IsTrimSpace(s[k])
    ensures n < |s| ==> !IsTrimSpace(s[|s| - n - 1])
    decreases |s|
  {
    if |s| > 0 && IsTrimSpace(s[|s| - 1]) then 1 + TrailingSpace(s[..|s| - 1]) else 0
  }

  /** The end of the trimmed window: just past the last non-space, or the window's start when there is none. */
  function TrimEnd(s: string): (hi: nat)
    ensures LeadingSpace(s) <= hi <= |s|
    ensures forall k :: hi <= k < |s| ==> IsTrimSpace(s[k])
    ensures LeadingSpace(s) < hi ==> !IsTrimSpace(s[hi - 1])
    ensures LeadingSpace(s) < |s| ==> LeadingSpace(s) < hi
  {
    var lo := LeadingSpace(s);
    var rest := s[lo..];
    var t := TrailingSpace(rest);
    assert forall k :: lo <= k < |s| ==> s[k] == rest[k - lo];
    lo + (|rest| - t)
  }

  /**
   * `trim($s)`: `s[lo..hi]` where everything outside the window is whitespace
   * and the window, when not empty, starts and ends with a non-space.
   */
  function Trim(s: string): (r: string)
    ensures |r| <= |s|
    ensures r == "" || (!IsTrimSpace(r[0]) && !IsTrimSpace(r[|r| - 1]))
  {
    s[LeadingSpace(s)..TrimEnd(s)]
  }

  /**
   * The trimmed text is a window of the input with only whitespace outside it,
   * and it is empty exactly when the input is all whitespace.
   */
  lemma TrimWindow(s: string)
    ensures Trim(s) == "" <==> forall k :: 0 <= k < |s| ==> IsTrimSpace(s[k])
    ensures exists lo, hi :: 0 <= lo <= hi <= |s| && Trim(s) == s[lo..hi]
                          && (forall k :: 0 <= k < lo ==> IsTrimSpace(s[k]))
                          && (forall k :: hi <= k < |s| ==> IsTrimSpace(s[k]))
  {
    var lo, hi := LeadingSpace(s), TrimEnd(s);
    assert Trim(s) == s[lo..hi];
  }

  /** Surrounding a word that has no whitespace at its ends with whitespace does not survive trim. */
  lemma TrimPadded(pre: string, x: string, post: string)
    requires forall k :: 0 <= k < |pre| ==> IsTrimSpace(pre[k])
    requires forall k :: 0 <= k < |post| ==> IsTrimSpace(post[k])
    requires |x| > 0 && !IsTrimSpace(x[0]) && !IsTrimSpace(x[|x| - 1])
    ensures Trim(pre + x + post) == x
  {
    var s := pre + x + post;
    var lo := LeadingSpace(s);
    assert s[|pre|] == x[0];
    assert lo == |pre|;
    var rest := s[lo..];
    assert rest == x + post;
    var t := TrailingSpace(rest);
    assert rest[|x| - 1] == x[|x| - 1];
    assert t == |post|;
    assert s[lo..lo + (|rest| - t)] == x;
  }

  /** A string with no whitespace at its ends is its own trim. */
  lemma TrimUnpadded(x: string)
    requires x == "" || (!IsTrimSpace(x[0]) && !IsTrimSpace(x[|x| - 1]))
    ensures Trim(x) == x
  {
    if x != "" {
      assert LeadingSpace(x) == 0;
      assert x[0..] == x;
      assert TrailingSpace(x) == 0;
    }
  }

  /** Trimming twice is the same as trimming once. */
  lemma TrimIdempotent(s: string)
    ensures Trim(Trim(s)) == Trim(s)
  {
    TrimUnpadded(Trim(s));
  }

  /** A string without the delimiter explodes to itself alone. */
  lemma SplitNoDelimiter(s: string, d: char)
    requires d !in s
    ensures Split(s, d) == [s]
  {
    SplitPrefix(s, "", d);
    assert s + "" == s;
  }

  /** A delimiter after a delimiter-free prefix ends the first piece. */
  lemma SplitAt(a: string, b: string, d: char)
    requires d !in a
    ensures Split(a + [d] + b, d) == [a] + Split(b, d)
  {
    assert a + [d] + b == a + ([d] + b);
    SplitPrefix(a, [d] + b, d);
    assert ([d] + b)[1..] == b;
    assert a + "" == a;
  }

  /** Number of occurrences of `c` in `s`. */
  function Count(s: string, c: char): (n: nat)
    ensures n == 0 <==> c !in s
    decreases |s|
  {
    if |s| == 0 then 0 else (if s[0] == c then 1 else 0) + Count(s[1..], c)
  }

  /** `explode` yields one piece more than there are delimiters. */
  lemma {:induction false} SplitCount(s: string, d: char)
    ensures |Split(s, d)| == Count(s, d) + 1
    decreases |s|
  {
    if |s| > 0 {
      SplitCount(s[1..], d);
    }
  }

  /** With exactly one delimiter, `explode` gives the text before it and the text after it. */
  lemma SplitPair(s: string, d: char)
    requires Count(s, d) == 1
    ensures IndexOf(s, d) < |s|
    ensures Split(s, d) == [s[..IndexOf(s, d)], s[IndexOf(s, d) + 1..]]
  {
    var i := IndexOf(s, d);
    var a, b := s[..i], s[i + 1..];
    assert s == a + [d] + b;
    SplitAt(a, b, d);
    SplitCount(s, d);
    JoinSplit(b, d);
  }
}
